=== FILE: README.md ===
# Quanta watchlist and account core, modelled in Dafny

This project models the logic of the Quanta personal-finance dashboard that
is not rendering or network plumbing:

- **Stock service**: `validateSymbol`, the classification of one provider
  reply by `getStockQuote` into a `Stock` or one of four error messages, and
  `getMultipleQuotes`, which keeps the fulfilled quotes in input order and
  silently drops the rest.
- **Watchlist handlers**: `handleAdd` checks, in this order, that a user is
  signed in, the syntax, duplicates and the size limit. It then verifies the
  quote, persists, and only then updates the local list. `handleRemove`
  persists, then filters. The add-stock form filters keystrokes and submits
  the upper-cased buffer.
- **Mock account store**: an in-memory map from e-mail to account, plus the
  signed-in profile, with signup, login, logout and merge-update. It is
  seeded with a test account.
- **Validators and mappings**: the signup form's check chain, including the
  e-mail pattern. The profile form's inclusive budget bounds. The Firebase
  error-code to message mapping and the default profile. The mock/Firebase
  mode decision. The constants table.

There is one module per source file (`StockService`, `WatchlistManager`,
`AddStockInput`, `MockAuth`, `AuthService`, `Config`, `Constants`,
`SignupForm`, `ProfileForm`). They share `Wrappers` (Option/Result), `Text`
(ASCII upper-casing, JavaScript white space, `trim`) and `Types` (the
records of `src/types/index.ts`). All state is immutable and every
operation is a pure function from the old state and its inputs to the new
state.

The outside world is made into inputs:
- The quote provider is a function from the upper-cased symbol to the HTTP
  replies of the quote and profile endpoints.
- Each document-store or profile write is a `StoreReply` (done, or failed
  with a message).
- Firebase calls are `Call`/`Result` values carrying an error code.
- Environment variables are `Option<string>`.
- Generated uids are parameters.

Outbound calls and store writes are recorded in order as `Request`s and
`Effect`s. This lets "no request is made" and "persist before update" be
stated as contracts.

The model follows the code in these places:
- `validateSymbol` does not trim, so surrounding white space is rejected.
- A failed company-profile request fails the whole quote, with the same
  status mapping as the quote request. There is no fallback to a quote
  without a name; the symbol is used as the name only when the profile
  answers without a name.
- `getMultipleQuotes` drops failed symbols instead of reporting them.
- Removing an absent symbol is a silent no-op, not a reported condition.
- The size check always uses the free-tier limit of 10, whatever the tier.
- The duplicate check compares exact strings. The local list appends the
  symbol as given, while the store write upper-cases it. Through the form
  the symbol is already upper-case (`SubmitKeepsWatchlistWellFormed`).

## Model

| member | source | states |
|---|---|---|
| Text.ToUpper | src/services/stockService.ts:14 | upper-casing keeps the length and changes only ASCII lower-case letters, each to its capital (the code point 32 lower) |
| Text.TrimEmptyIffBlank | src/components/stock/AddStockInput.tsx:22 | `s.trim()` is empty exactly when every character of `s` is JavaScript white space |
| StockService.ValidateSymbol | src/services/stockService.ts:12-15 | accepts exactly the strings of 1 to 5 ASCII letters of either case; nothing is trimmed |
| StockService.ValidateSymbolCaseInsensitive | src/services/stockService.ts:13-14 | validation gives the same answer for a string and its upper-cased form; a leading or trailing space, an empty string and a string over 5 characters are rejected |
| StockService.DefaultWatchlistValid | src/utils/constants.ts:76 | every default ticker passes validation and is already upper-case |
| StockService.QuoteErrorMessage | src/services/stockService.ts:28-62 | each quote error is thrown with a fixed, non-empty message |
| StockService.QuoteErrorMessageInjective | src/services/stockService.ts:28-62 | no two quote errors share a message, so the form's text tells them apart |
| StockService.StatusError | src/services/stockService.ts:47-62 | a failed request maps to the rate-limit error exactly for status 429, to the API-key error exactly for 401, and otherwise to the generic error, never to "not found" |
| StockService.GetStockQuote | src/services/stockService.ts:20-64 | the provider is asked first for the quote, then possibly for the profile, always about the upper-cased symbol; the profile is requested exactly when the quote answered with a non-zero price; a success carries the upper-cased symbol |
| StockService.QuoteSucceedsIff | src/services/stockService.ts:25-46 | a quote succeeds exactly when the quote request answers with a truthy price and the profile request answers |
| StockService.QuoteSuccessFields | src/services/stockService.ts:39-45 | a successful quote has the upper-cased symbol, the provider's non-zero price, and the profile name, or the symbol when the name is missing or empty |
| StockService.NotFoundSkipsProfile | src/services/stockService.ts:30-32 | "not found" happens exactly when the price is missing or zero, and then only the quote request was made |
| StockService.FailureClassification | src/services/stockService.ts:47-62 | 429 and 401 from whichever request failed give their own messages, and every other failure, including a failed profile request, gives the generic message |
| StockService.QuoteCaseInsensitive | src/services/stockService.ts:21-27 | fetching a symbol and fetching its upper-cased form are the same operation |
| StockService.Fulfilled | src/services/stockService.ts:78-80 | keeping the fulfilled results never yields more values than results |
| StockService.FulfilledAppend | src/services/stockService.ts:78-80 | the fulfilled-only filter distributes over concatenation, so it keeps input order |
| StockService.FulfilledMembership | src/services/stockService.ts:78-80 | a value is kept exactly when it was some result's fulfilled value |
| StockService.FulfilledAllOrNone | src/services/stockService.ts:78-80 | nothing is dropped exactly when every result fulfilled; all-rejected results give the empty list |
| StockService.SuccessesAppend | src/services/stockService.ts:74-80 | the batch result of a concatenated symbol list is the concatenation of the batch results, so quotes keep input order |
| StockService.SuccessesMembership | src/services/stockService.ts:74-80 | a quote is in the batch result exactly when some input symbol's own fetch returned it |
| StockService.SuccessesAllOrNone | src/services/stockService.ts:74-80 | the batch keeps one quote per symbol exactly when every symbol succeeded, and is empty when all fail |
| StockService.GetMultipleQuotes | src/services/stockService.ts:69-81 | the batch never fails; it returns exactly the successful quotes in input order, at most one per symbol; the requests it issues are, as a multiset, exactly the union of each symbol's own quote-and-profile requests, and none for an empty list |
| StockService.AllRequestsAppend | src/services/stockService.ts:74-76 | the traffic of a concatenated symbol list is the traffic of its parts, so each symbol contributes its own requests |
| StockService.AllRequestsSingle | src/services/stockService.ts:74-76 | a one-symbol batch makes exactly the requests that symbol's own quote fetch makes |
| WatchlistManager.HandleAdd | src/components/stock/WatchlistManager.tsx:20-48 | an add succeeds exactly when a user is signed in, the symbol validates, is not already listed, the list has fewer than 10 entries, the quote verifies and both writes succeed; then the list becomes `watchlist + [symbol]`; otherwise it is unchanged; the size-and-uniqueness invariant is preserved; once the quote verified, a failed store write is reported with that write's own message after only the verification requests and the write, and a failed profile update with its own message after the write and the update; a successful add made exactly the verification requests, the store write of the upper-cased symbol and the update to `watchlist + [symbol]` |
| WatchlistManager.AddErrorMessage | src/components/stock/WatchlistManager.tsx:21-47 | the guards and the quote fetch throw fixed non-empty messages, and a failed write passes its own message through |
| WatchlistManager.AddErrorMessageInjective | src/components/stock/WatchlistManager.tsx:21-42 | apart from a failed write, each add error has its own message |
| WatchlistManager.AddGuardOrder | src/components/stock/WatchlistManager.tsx:21-38 | the signed-in, syntax, exact-duplicate and size checks run in that order, the first failing one decides the error, and none makes a request or a write |
| WatchlistManager.AddQuoteFailureWritesNothing | src/components/stock/WatchlistManager.tsx:41-47 | once the guards pass, a failing quote fetch makes the add fail with that fetch's error, leaves the list alone, and only its HTTP requests were made: nothing is persisted or updated |
| WatchlistManager.AddPersistsBeforeUpdate | src/components/stock/WatchlistManager.tsx:44-47 | a profile update is only issued after a successful store write of the upper-cased symbol, and the local list changes only after both |
| WatchlistManager.Without | src/components/stock/WatchlistManager.tsx:56 | the filtered list holds exactly the other symbols, is no longer, and equals the input when the symbol is absent |
| WatchlistManager.WithoutAppend | src/components/stock/WatchlistManager.tsx:56 | filtering distributes over concatenation, so the remaining symbols keep their order |
| WatchlistManager.WithoutNoDuplicates | src/components/stock/WatchlistManager.tsx:56 | on a duplicate-free list, filtering keeps it duplicate-free and removes exactly one entry when the symbol is present |
| WatchlistManager.WithoutUndoesAppend | src/components/stock/WatchlistManager.tsx:47-56 | removing a symbol that was just appended to a list not containing it gives back the original list |
| WatchlistManager.HandleRemove | src/components/stock/WatchlistManager.tsx:50-60 | with no user nothing changes and nothing is done; otherwise the removal is written first, the action error is cleared exactly when both writes succeed, and only then does the list become the filtered list; a failed removal shows its own message and stops before the profile update, and a failed profile update shows its own message; after a successful removal the profile update writes exactly the filtered list |
| WatchlistManager.RemovePreservesInv | src/components/stock/WatchlistManager.tsx:50-60 | removal keeps the list within 10 entries and duplicate-free, and a list that changed lost exactly the removed symbol |
| WatchlistManager.AddThenRemove | src/components/stock/WatchlistManager.tsx:20-60 | removing a symbol right after successfully adding it restores the list; removing an absent symbol leaves the list as it was |
| AddStockInput.ChangeAcceptedIff | src/components/stock/AddStockInput.tsx:36-41 | a keystroke value is accepted exactly when it is at most 5 ASCII letters of either case |
| AddStockInput.HandleChange | src/components/stock/AddStockInput.tsx:36-42 | an accepted value becomes the buffer upper-cased and clears the error; a rejected one changes nothing; the buffer stays 0 to 5 capital letters |
| AddStockInput.HandleSubmit | src/components/stock/AddStockInput.tsx:19-34 | `onAdd` is called exactly when the buffer is not blank, with the upper-cased buffer; success clears buffer and error, failure keeps the buffer and stores the message or the fallback text; loading ends false; a blank buffer changes nothing |
| AddStockInput.InitialInputDisabled | src/components/stock/AddStockInput.tsx:15-17 | the form starts with an empty, well-formed buffer, no error, and a disabled Add button |
| AddStockInput.EnabledSubmitCallsOnAdd | src/components/stock/AddStockInput.tsx:44-62 | with a well-formed buffer an enabled Add button always reaches `onAdd`, and a full list always disables it |
| AddStockInput.ReplyOf | src/components/stock/AddStockInput.tsx:27-30 | the add handler's outcome reaches the form as a resolution exactly when the add succeeded, and a rejection carries the message the handler threw |
| AddStockInput.SubmitDisabled | src/components/stock/AddStockInput.tsx:62 | a full list, an add in flight or an empty buffer disables the Add button, a non-empty idle form below the limit enables it, and an enabled button holds a buffer that is not blank |
| AddStockInput.FullMatchesAddGuard | src/components/stock/AddStockInput.tsx:44 | the form's `isFull` on the list length and the free limit holds exactly when the add handler's size guard is the one that refuses |
| AddStockInput.SubmitToWatchlist | src/components/stock/AddStockInput.tsx:19-34 | submitting a blank buffer leaves the form and the watchlist alone |
| AddStockInput.SubmitKeepsWatchlistWellFormed | src/components/stock/AddStockInput.tsx:27-28 | through the form the watchlist only gains upper-case 1 to 5 letter tickers, keeps its size and uniqueness invariant, and a successful add appends the buffer and clears it |
| Types.Merge | src/services/mockAuthService.ts:83 | the spread update takes the e-mail, uid and watchlist from the update when present and from the profile otherwise |
| Types.MergeNoUpdate | src/services/mockAuthService.ts:83 | spreading an empty update leaves the profile as it was |
| Types.MergeIdempotent | src/services/mockAuthService.ts:83 | spreading the same update twice is spreading it once |
| Types.MergeThen | src/services/mockAuthService.ts:83 | merging two updates in turn equals merging once with the later update winning field by field |
| MockAuth.NewProfile | src/services/mockAuthService.ts:27-36 | a fresh profile has the given uid, e-mail and name, an empty watchlist, the index strategy, budget 1000 and the free tier |
| MockAuth.Signup | src/services/mockAuthService.ts:15-40 | signup fails exactly for a registered e-mail, and then nothing changes; otherwise the account is stored under its e-mail and its profile becomes current |
| MockAuth.Login | src/services/mockAuthService.ts:45-56 | login succeeds exactly for a stored e-mail with the exact password and makes its stored profile current; on failure nothing changes; accounts are never changed |
| MockAuth.Logout | src/services/mockAuthService.ts:61-64 | logout clears the current user and keeps every account |
| MockAuth.CurrentUser | src/services/mockAuthService.ts:69-71 | nobody is reported before a login or signup, and in a consistent store the reported user is the stored profile of its own entry |
| MockAuth.UpdateProfile | src/services/mockAuthService.ts:76-90 | with no current user it fails and changes nothing; otherwise current becomes the merge, the entry keyed by the merged e-mail (if any) gets that profile, and every other entry is untouched |
| MockAuth.InitialConsistent | src/services/mockAuthService.ts:92-106 | the initial store holds only the test account with watchlist AAPL, GOOGL, MSFT, nobody is signed in, and it is consistent |
| MockAuth.OperationsKeepConsistent | src/services/mockAuthService.ts:15-90 | signup, login, logout and every update that does not touch the e-mail keep each entry keyed by its own e-mail and the current profile equal to its stored entry |
| MockAuth.EmailChangeDetaches | src/services/mockAuthService.ts:83-89 | an update moving the e-mail to an unregistered address succeeds, writes no entry, and leaves the current profile detached from the store |
| MockAuth.SignupThenLogin | src/services/mockAuthService.ts:23-55 | after signing up and logging out, logging in with the same password succeeds and yields the profile signup created |
| MockAuth.SignupTwiceFails | src/services/mockAuthService.ts:23-25 | a second signup with the same e-mail fails with "Email already in use" and leaves the store unchanged |
| MockAuth.SeededLogin | src/services/mockAuthService.ts:93-106 | the seeded account logs in with `password123` and with no other password, and yields the seeded profile |
| AuthService.HandleAuthError | src/services/authService.ts:147-172 | every error code, or none, maps to one of the eight known messages: the mapping is total |
| AuthService.AuthErrorMapping | src/services/authService.ts:150-171 | invalid e-mail and wrong password share the credentials message; user-not-found, user-disabled, e-mail-in-use, weak-password, network and too-many-requests codes get their own; exactly the unlisted codes get the generic message |
| AuthService.CreateUserProfile | src/services/authService.ts:84-101 | the written document has the account's uid and e-mail, the given name, the index strategy, budget 1000, an empty watchlist and the free tier |
| AuthService.SignupDefaultsAgree | src/services/authService.ts:88-98 | the Firebase and mock back ends create the same initial profile |
| AuthService.Signup | src/services/authService.ts:20-43 | signup succeeds exactly when all three Firebase steps complete, returns the created user and writes the default document; the first step that throws decides the message, which is the mapping of that step's code |
| AuthService.SignupAgreesWithMock | src/services/authService.ts:20-43 | a fresh e-mail gets the same profile from the Firebase and the mock signup, and a taken e-mail fails in both |
| AuthService.Login | src/services/authService.ts:48-57 | login succeeds exactly when sign-in does; a failure surfaces as the mapping of its code |
| Config.UseMockAuth | src/config.ts:8 | the mock flag is on exactly when the variable is the string "true" |
| Config.IsFirebaseConfigured | src/config.ts:13-16 | a configured key is set and non-empty, and the placeholder key is never configured |
| Config.ShouldUseMockAuth | src/config.ts:22-34 | mock mode is chosen exactly when the flag is on or Firebase is not configured |
| Config.ModeDecision | src/config.ts:22-34 | the flag `"true"` selects the mock whatever the key; an unset, empty or placeholder key falls back to mock; otherwise Firebase is used exactly for a real key; the flag is case-sensitive |
| Constants.SubscriptionFeatures | src/utils/constants.ts:169-194 | only the free tier has finite AI messages and no tracking, charts or alerts; only premium has priority support and an unbounded watchlist |
| Constants.WatchlistLimit | src/utils/constants.ts:169-194 | a tier's watchlist bound is absent exactly when its table entry is the -1 sentinel, and otherwise equals that entry |
| Constants.TierLimitsAgree | src/utils/constants.ts:78-79 | the free and pro table limits equal the standalone limits 10 and 50 |
| Constants.TierLimitsNested | src/utils/constants.ts:169-194 | premium holds any number of symbols, a larger tier holds whatever a smaller one holds, and the free tier holds exactly up to 10 |
| Constants.DefaultWatchlistFitsFreeTier | src/utils/constants.ts:76-78 | the 5-entry default watchlist fits the free tier |
| Constants.BudgetBoundsOrdered | src/utils/constants.ts:160-161 | the minimum budget is below the default budget, which is below the maximum |
| Constants.ParseStrategy | src/utils/constants.ts:9-57 | an id names a strategy exactly when it is one of the declared ids |
| Constants.StrategyIdRoundTrip | src/utils/constants.ts:9-57 | strategy ids and strategies are in one-to-one correspondence: parsing a strategy's id gives it back, and a parsed id is that strategy's id |
| Constants.StrategyIdsDistinct | src/utils/constants.ts:9-57 | the four declared ids are pairwise distinct and every strategy's id is among them |
| SignupForm.ValidEmailShape | src/utils/constants.ts:158 | an address accepted by the e-mail pattern has no white space and exactly one `@`, which is neither first nor last |
| SignupForm.IsValidEmail | src/utils/constants.ts:158 | an address the pattern accepts is at least five characters long and holds an `@` and a `.` |
| SignupForm.EmailSplit | src/utils/constants.ts:158 | an `@` and a later `.` splitting the string into three non-empty segments without white space or `@` make it valid |
| SignupForm.EmailAccepted | src/utils/constants.ts:158 | `a@b.c` and `test@quanta.com` are accepted |
| SignupForm.EmailRejected | src/utils/constants.ts:158 | `a@b` (no dot after the `@`) and `@b.c` (nothing before it) are rejected |
| SignupForm.ValidateSignup | src/pages/Signup.tsx:28-51 | `signup` is called exactly when the passwords match, the password has at least 6 characters, the e-mail matches and the name is not blank, and then with the untrimmed fields; a mismatch is always the reported error |
| SignupForm.SignupCheckOrder | src/pages/Signup.tsx:28-46 | each check's message is reported exactly when it fails and every earlier check passed |
| SignupForm.SignupBoundaryExamples | src/pages/Signup.tsx:33-51 | a 6-character password passes and a 5-character one is rejected; a padded name is passed on untrimmed |
| SignupForm.HandleSubmit | src/pages/Signup.tsx:23-59 | the page calls `signup` exactly when validation passes, navigates exactly when it succeeds, shows the check's message when not called, and after a failed signup shows the thrown message, or the fallback when that message is empty, and shows no error after navigating |
| ProfileForm.InitialForm | src/pages/Profile.tsx:16-20 | the form starts from the profile, with an empty name, budget 1000 and the index strategy when there is none, and a stored budget kept unless it is zero, which is replaced by 1000 |
| ProfileForm.ValidateProfile | src/pages/Profile.tsx:32-49 | an update is sent exactly when 10 ≤ budget ≤ 1,000,000; a low budget and a high budget each get their own message; the update never touches uid, e-mail, watchlist or tier |
| ProfileForm.BudgetBoundsInclusive | src/pages/Profile.tsx:32-40 | budgets of exactly 10 and exactly 1,000,000 are accepted; 9.99 and 1,000,000.01 are rejected |
| ProfileForm.SaveKeepsAccountStore | src/pages/Profile.tsx:45-49 | saving through the mock store changes exactly the name, budget and strategy of the signed-in profile and keeps the store consistent |

## Left out

- Rendering: all JSX, styling and layout components. Only the handler logic of the modelled components is kept.
- Timers and concurrency: the 60-second refresh in `useStocks`, the 1-second polling and the `onAuthStateChanged` subscription in `AuthContext`, and the simulated `setTimeout` delays of the mock store. These are scheduling, not logic.
- The back-end dispatch in `auth.ts` and the Firestore wrappers in `firestoreService.ts`. Their writes appear only as the `PersistAdd`/`PersistRemove`/`UpdateProfile` effects, whose outcomes are inputs.
- `AuthContext.updateUserProfile`'s local merge is represented by the `UpdateProfile` effect and its reply, not by a second copy of the profile.
- HTTP itself: URLs, the API key and axios. A reply is a body or a failure with an optional status. Throws inside `getStockQuote` that are not HTTP failures are covered by a failure without a status, which maps to the generic error.
- Floating point: prices, changes and budgets are exact reals. NaN is not modelled; in JavaScript a NaN budget passes both Profile checks. `toFixed`/`toLocaleString` formatting is not modelled; the budget messages are written out.
- Timestamps (`createdAt`, `updatedAt`, `lastUpdated`, `Date.now()` uids): uids are parameters.
- Unicode: `toUpperCase` is modelled for ASCII only; JavaScript also maps other letters, e.g. `ß` to `SS`. String lengths count characters, not UTF-16 code units, so a password with astral-plane characters is measured differently.
- Thrown values that are not `Error` instances are modelled only in the add form. There they are the `Rejected(None)` reply with the "Failed to add stock" fallback. Store writes in the remove handler always fail with a message, so its "Failed to remove stock" fallback is not modelled.
- The Firebase `logout`, `resetPassword`, `getUserProfile`, `updateUserProfile` and `getCurrentUser` wrappers: each is a single Firebase call with no logic of its own beyond error mapping.
- Constants with no behaviour here: routes, API URLs, AI limits, success messages and the unused stock error messages.
- StockService.GetMultipleQuotes: states which requests are made (as a multiset), not their order, because the source issues them concurrently.
- WatchlistManager.HandleAdd: assumes the signed-in user's profile is loaded. In the source the profile can be null while a user is signed in (a missing or unreadable Firebase document); the list then reads as empty, and after a successful add the profile stays null, so the local list stays empty where the model gives `[symbol]`.
- WatchlistManager.HandleRemove: likewise assumes a loaded profile; with a null profile the source filters the empty list and its profile update leaves the profile null.
- StockService.Provider: the provider's reply is a function of the upper-cased symbol alone, so a symbol repeated in one batch, or checked at add time and fetched again later, always gets identical replies, although the source makes separate HTTP calls each time.
- AuthService.Signup: the source returns Firebase's `UserCredential`; the model returns the user it carries together with the profile document written for it.

=== FILE: add_stock_input.dfy ===
/**
  The add-stock form: a keystroke filter that keeps the buffer at 0 to 5
  capital letters, and a submit handler that passes the upper-cased buffer
  to `onAdd` (the watchlist's add handler) and resets or keeps the buffer
  according to the outcome.
 */
module AddStockInput {
  import opened Wrappers
  import opened Text
  import StockService
  import WatchlistManager
  import Constants

  const MAX_INPUT_LENGTH: nat := 5

  /** The component state: text buffer, in-flight flag, error text ("" for none). */
  datatype InputState = InputState(symbol: string, loading: bool, error: string)

  const InitialInput := InputState("", false, "")

  /** What the buffer may hold: the pattern `^[A-Z]{0,5}$`. */
  predicate BufferOk(b: string) {
    |b| <= MAX_INPUT_LENGTH && forall i :: 0 <= i < |b| ==> IsAsciiUpper(b[i])
  }

  /** The test `handleChange` applies to the upper-cased keystroke value. */
  predicate ChangeAccepted(value: string) {
    var v := ToUpper(value);
    v == "" || BufferOk(v)
  }

  /** A value is accepted exactly when it is at most five ASCII letters of either case. */
  lemma ChangeAcceptedIff(value: string)
    ensures ChangeAccepted(value)
            <==> |value| <= MAX_INPUT_LENGTH && forall i :: 0 <= i < |value| ==> IsAsciiLetter(value[i])
  {
  }

  /** `handleChange`: an accepted value replaces the buffer upper-cased and clears the error. */
  function HandleChange(st: InputState, value: string): (r: InputState)
    ensures ChangeAccepted(value) ==> r.symbol == ToUpper(value) && r.error == "" && r.loading == st.loading
    ensures !ChangeAccepted(value) ==> r == st
    ensures BufferOk(st.symbol) ==> BufferOk(r.symbol)
  {
    var v := ToUpper(value);
    if v == "" || BufferOk(v) then st.(symbol := v, error := "") else st
  }

  /** How the awaited `onAdd` settled: resolved, or rejected with an `Error`'s message (None: not an `Error`). */
  datatype OnAddReply = Resolved | Rejected(message: Option<string>)

  /** The state after submit, and the argument `onAdd` was called with (None: not called). */
  datatype SubmitResult = SubmitResult(state: InputState, call: Option<string>)

  /** `handleSubmit`. */
  function HandleSubmit(st: InputState, reply: OnAddReply): (r: SubmitResult)
    ensures r.call.None? <==> IsBlank(st.symbol)
    ensures r.call.None? ==> r.state == st
    ensures r.call.Some? ==> r.call.value == ToUpper(st.symbol) && !r.state.loading
    ensures r.call.Some? && reply.Resolved? ==> r.state.symbol == "" && r.state.error == ""
    ensures r.call.Some? && reply.Rejected? ==> r.state.symbol == st.symbol
    ensures r.call.Some? && reply == Rejected(None) ==> r.state.error == "Failed to add stock"
    ensures r.call.Some? && reply.Rejected? && reply.message.Some? ==> r.state.error == reply.message.value
    ensures BufferOk(st.symbol) ==> BufferOk(r.state.symbol)
  {
    TrimEmptyIffBlank(st.symbol);
    if Trim(st.symbol) == "" then SubmitResult(st, None)
    else
      var call := Some(ToUpper(st.symbol));
      match reply
      case Resolved => SubmitResult(InputState("", false, ""), call)
      case Rejected(message) =>
        var text := if message.Some? then message.value else "Failed to add stock";
        SubmitResult(st.(loading := false, error := text), call)
  }

  /** `isFull`. */
  predicate IsFull(currentCount: int, maxCount: int) {
    currentCount >= maxCount
  }

  /**
    The Add button's `disabled` expression: a full list always disables it,
    and an enabled button holds a buffer that survives the blank check.
   */
  predicate SubmitDisabled(st: InputState, currentCount: int, maxCount: int)
    ensures IsFull(currentCount, maxCount) ==> SubmitDisabled(st, currentCount, maxCount)
    ensures st.loading ==> SubmitDisabled(st, currentCount, maxCount)
    ensures st.symbol != "" && !st.loading && !IsFull(currentCount, maxCount) ==> !SubmitDisabled(st, currentCount, maxCount)
    ensures BufferOk(st.symbol) && !SubmitDisabled(st, currentCount, maxCount) ==> !IsBlank(st.symbol)
  {
    FilledBufferNotBlank(st.symbol);
    st.symbol == "" || st.loading || IsFull(currentCount, maxCount)
  }

  /** A non-empty buffer of capitals is never blank, so it passes `handleSubmit`'s trim check. */
  lemma FilledBufferNotBlank(b: string)
    ensures BufferOk(b) && b != "" ==> !IsBlank(b)
  {
    if BufferOk(b) && b != "" {
      assert !IsWhitespace(b[0]);
    }
  }

  /**
    The dashboard gives the form the list's length and the free-tier limit,
    so the form shows the list full exactly when the add handler's size
    guard, reached by a signed-in user with a new valid symbol, refuses.
   */
  lemma FullMatchesAddGuard(
    user: Option<string>, watchlist: seq<string>, symbol: string,
    provider: StockService.Provider, persist: WatchlistManager.StoreReply, update: WatchlistManager.StoreReply)
    ensures WatchlistManager.HandleAdd(user, watchlist, symbol, provider, persist, update).error
              == Some(WatchlistManager.WatchlistFull)
            <==> user.Some? && StockService.ValidateSymbol(symbol) && symbol !in watchlist
                 && IsFull(|watchlist|, Constants.MAX_WATCHLIST_SIZE_FREE)
  {
  }

  /** The form starts empty, idle and without an error, so its buffer is well-formed and the button disabled. */
  lemma InitialInputDisabled(currentCount: int, maxCount: int)
    ensures BufferOk(InitialInput.symbol) && InitialInput.error == ""
    ensures SubmitDisabled(InitialInput, currentCount, maxCount)
  {
  }

  /** An enabled button always reaches `onAdd`, and a full list always disables it. */
  lemma EnabledSubmitCallsOnAdd(st: InputState, currentCount: int, maxCount: int, reply: OnAddReply)
    requires BufferOk(st.symbol)
    ensures !SubmitDisabled(st, currentCount, maxCount) ==> HandleSubmit(st, reply).call.Some?
    ensures currentCount >= maxCount ==> SubmitDisabled(st, currentCount, maxCount)
  {
    if st.symbol != "" {
      assert !IsWhitespace(st.symbol[0]);
    }
  }

  /** The reply the watchlist's add handler gives back to the form. */
  function ReplyOf(r: WatchlistManager.AddResult): (reply: OnAddReply)
    ensures reply.Resolved? <==> r.error.None?
    ensures reply.Rejected? ==> reply.message == Some(WatchlistManager.AddErrorMessage(r.error.value))
  {
    if r.error.None? then Resolved
    else Rejected(Some(WatchlistManager.AddErrorMessage(r.error.value)))
  }

  /** Submitting the form wired to the dashboard: the form state and the resulting watchlist. */
  datatype Wired = Wired(input: InputState, watchlist: seq<string>)

  function SubmitToWatchlist(
    st: InputState, user: Option<string>, watchlist: seq<string>,
    provider: StockService.Provider,
    persist: WatchlistManager.StoreReply, update: WatchlistManager.StoreReply): (w: Wired)
    ensures IsBlank(st.symbol) ==> w == Wired(st, watchlist)
  {
    TrimEmptyIffBlank(st.symbol);
    if Trim(st.symbol) == "" then Wired(st, watchlist)
    else
      var added := WatchlistManager.HandleAdd(user, watchlist, ToUpper(st.symbol), provider, persist, update);
      Wired(HandleSubmit(st, ReplyOf(added)).state, added.watchlist)
  }

  /** Every entry is a normalised ticker. */
  predicate AllTickers(w: seq<string>) {
    forall i :: 0 <= i < |w| ==> StockService.IsTicker(w[i])
  }

  /**
    Through the form, the watchlist only ever gains normalised tickers, the
    buffer stays well-formed, and the size and uniqueness invariant holds.
    A successful add clears the buffer; a failed one keeps it.
   */
  lemma SubmitKeepsWatchlistWellFormed(
    st: InputState, user: Option<string>, watchlist: seq<string>,
    provider: StockService.Provider,
    persist: WatchlistManager.StoreReply, update: WatchlistManager.StoreReply)
    requires BufferOk(st.symbol)
    requires AllTickers(watchlist) && WatchlistManager.WatchlistInv(watchlist)
    ensures var w := SubmitToWatchlist(st, user, watchlist, provider, persist, update);
            && AllTickers(w.watchlist)
            && WatchlistManager.WatchlistInv(w.watchlist)
            && BufferOk(w.input.symbol)
            && (w.watchlist != watchlist ==>
                  w.watchlist == watchlist + [st.symbol] && w.input.symbol == "")
  {
    ToUpperFixedPoint(st.symbol);
    assert ToUpper(st.symbol) == st.symbol;
    TrimEmptyIffBlank(st.symbol);
    if Trim(st.symbol) != "" {
      var added := WatchlistManager.HandleAdd(user, watchlist, st.symbol, provider, persist, update);
      assert added.error.None? ==> StockService.IsTicker(st.symbol);
      if added.error.None? {
        AppendKeepsTickers(watchlist, st.symbol);
      }
    }
  }

  /** Appending a ticker to a list of tickers gives a list of tickers. */
  lemma AppendKeepsTickers(w: seq<string>, symbol: string)
    requires AllTickers(w) && StockService.IsTicker(symbol)
    ensures AllTickers(w + [symbol])
  {
    forall i | 0 <= i < |w + [symbol]|
      ensures StockService.IsTicker((w + [symbol])[i])
    {
      if i < |w| {
        assert (w + [symbol])[i] == w[i];
      }
    }
  }
}

=== FILE: auth_service.dfy ===
/**
  The Firebase-backed account service, reduced to what it decides itself:
  the error-code to message mapping every signup and login failure goes
  through, and the profile document a signup writes. The Firebase calls
  are inputs: each step either completes or throws with an error code.
 */
module AuthService {
  import opened Wrappers
  import opened Types
  import Constants
  import MockAuth

  const INVALID_CREDENTIALS := "Invalid email or password. Please try again."
  const EMAIL_IN_USE := "This email is already registered. Please login instead."
  const WEAK_PASSWORD := "Password should be at least 6 characters long."
  const NETWORK_ERROR := "Network error. Please check your internet connection."
  const USER_NOT_FOUND := "No account found with this email."
  const GENERIC := "Authentication failed. Please try again."
  const USER_DISABLED := "This account has been disabled."
  const TOO_MANY_REQUESTS := "Too many failed login attempts. Please try again later."

  /** Every message an authentication failure can surface as. */
  const AUTH_MESSAGES: set<string> := {
    INVALID_CREDENTIALS, EMAIL_IN_USE, WEAK_PASSWORD, NETWORK_ERROR,
    USER_NOT_FOUND, GENERIC, USER_DISABLED, TOO_MANY_REQUESTS }

  /** `handleAuthError`: the error's `code` (None when it has none) to a user-facing message. */
  function HandleAuthError(code: Option<string>): (message: string)
    ensures message in AUTH_MESSAGES
  {
    if code == Some("auth/invalid-email") then INVALID_CREDENTIALS
    else if code == Some("auth/user-disabled") then USER_DISABLED
    else if code == Some("auth/user-not-found") then USER_NOT_FOUND
    else if code == Some("auth/wrong-password") then INVALID_CREDENTIALS
    else if code == Some("auth/email-already-in-use") then EMAIL_IN_USE
    else if code == Some("auth/weak-password") then WEAK_PASSWORD
    else if code == Some("auth/network-request-failed") then NETWORK_ERROR
    else if code == Some("auth/too-many-requests") then TOO_MANY_REQUESTS
    else GENERIC
  }

  /** The codes the mapping names. */
  const KNOWN_CODES: set<string> := {
    "auth/invalid-email", "auth/user-disabled", "auth/user-not-found", "auth/wrong-password",
    "auth/email-already-in-use", "auth/weak-password", "auth/network-request-failed",
    "auth/too-many-requests" }

  /**
    A bad e-mail and a wrong password are indistinguishable to the user;
    the other named codes get their own messages; anything else is generic.
   */
  lemma AuthErrorMapping(code: Option<string>)
    ensures HandleAuthError(code) == INVALID_CREDENTIALS
            <==> code == Some("auth/invalid-email") || code == Some("auth/wrong-password")
    ensures HandleAuthError(code) == USER_NOT_FOUND <==> code == Some("auth/user-not-found")
    ensures HandleAuthError(code) == EMAIL_IN_USE <==> code == Some("auth/email-already-in-use")
    ensures HandleAuthError(code) == WEAK_PASSWORD <==> code == Some("auth/weak-password")
    ensures HandleAuthError(code) == NETWORK_ERROR <==> code == Some("auth/network-request-failed")
    ensures HandleAuthError(code) == USER_DISABLED <==> code == Some("auth/user-disabled")
    ensures HandleAuthError(code) == TOO_MANY_REQUESTS <==> code == Some("auth/too-many-requests")
    ensures HandleAuthError(code) == GENERIC <==> code.None? || code.value !in KNOWN_CODES
  {
  }

  /** The account Firebase created: uid and e-mail. */
  datatype FirebaseUser = FirebaseUser(uid: string, email: string)

  /** One awaited Firebase call: completed, or threw an error carrying an optional code. */
  datatype Call = Done | Threw(code: Option<string>)

  /** `createUserProfile`: the document a new account starts with. */
  function CreateUserProfile(user: FirebaseUser, displayName: string): (p: UserProfile)
    ensures p.uid == user.uid && p.email == user.email && p.displayName == displayName
    ensures p.investmentStrategy == Index && p.monthlyBudget == Constants.MONTHLY_BUDGET
    ensures p.watchlist == [] && p.subscriptionTier == Free
  {
    UserProfile(user.uid, user.email, displayName, Index, 1000.0, [], Free)
  }

  /** Both back ends create the same initial profile. */
  lemma SignupDefaultsAgree(uid: string, email: string, displayName: string)
    ensures CreateUserProfile(FirebaseUser(uid, email), displayName) == MockAuth.NewProfile(uid, email, displayName)
  {
  }

  /** A completed signup: the credential's user, and the profile document written for it. */
  datatype SignedUp = SignedUp(user: FirebaseUser, written: UserProfile)

  /**
    `signup`: create the account, set its display name, write its profile
    document. The first step that throws decides the message, always via
    `HandleAuthError`; on success the credential's user is returned.
   */
  function Signup(
    create: Result<FirebaseUser, Option<string>>, setName: Call, writeDoc: Call, displayName: string):
    (r: Result<SignedUp, string>)
    ensures r.Success? <==> create.Success? && setName.Done? && writeDoc.Done?
    ensures r.Success? ==> r.value.user == create.value
                           && r.value.written == CreateUserProfile(create.value, displayName)
    ensures r.Failure? ==> r.error in AUTH_MESSAGES
    ensures create.Failure? ==> r == Failure(HandleAuthError(create.error))
    ensures create.Success? && setName.Threw? ==> r == Failure(HandleAuthError(setName.code))
    ensures create.Success? && setName.Done? && writeDoc.Threw? ==> r == Failure(HandleAuthError(writeDoc.code))
  {
    match create
    case Failure(code) => Failure(HandleAuthError(code))
    case Success(user) =>
      if setName.Threw? then Failure(HandleAuthError(setName.code))
      else if writeDoc.Threw? then Failure(HandleAuthError(writeDoc.code))
      else Success(SignedUp(user, CreateUserProfile(user, displayName)))
  }

  /**
    The two back ends agree on signup: a fresh e-mail gets the same profile
    either way, and a taken one fails either way, each with its own wording.
   */
  lemma SignupAgreesWithMock(st: MockAuth.Store, email: string, password: string, displayName: string, uid: string)
    ensures var fb := Signup(Success(FirebaseUser(uid, email)), Done, Done, displayName);
            var mock := MockAuth.Signup(st, email, password, displayName, uid);
            email !in st.users ==> fb.Success? && mock.store.current == Some(fb.value.written)
    ensures var fb := Signup(Failure(Some("auth/email-already-in-use")), Done, Done, displayName);
            var mock := MockAuth.Signup(st, email, password, displayName, uid);
            email in st.users ==> fb == Failure(EMAIL_IN_USE) && mock.error == Some(MockAuth.EMAIL_IN_USE)
  {
  }

  /** `login`: the signed-in uid, or the mapped message. */
  function Login(signIn: Result<string, Option<string>>): (r: Result<string, string>)
    ensures r.Success? <==> signIn.Success?
    ensures r.Success? ==> r.value == signIn.value
    ensures r.Failure? ==> r.error == HandleAuthError(signIn.error) && r.error in AUTH_MESSAGES
  {
    match signIn
    case Success(uid) => Success(uid)
    case Failure(code) => Failure(HandleAuthError(code))
  }
}

=== FILE: config.dfy ===
/**
  Back-end selection. The build-time environment variables are parameters:
  `None` stands for an unset variable.
 */
module Config {
  import opened Wrappers

  const PLACEHOLDER_API_KEY := "your_firebase_api_key_here"

  /** `USE_MOCK_AUTH`: the flag is on only for the exact string "true". */
  function UseMockAuth(flag: Option<string>): (on: bool)
    ensures on ==> flag.Some?
  {
    flag == Some("true")
  }

  /** `isFirebaseConfigured`: a key is set, is not the template placeholder, and is non-empty. */
  function IsFirebaseConfigured(apiKey: Option<string>): (ok: bool)
    ensures ok ==> apiKey.Some? && |apiKey.value| > 0
    ensures apiKey == Some(PLACEHOLDER_API_KEY) ==> !ok
  {
    apiKey.Some? && apiKey.value != PLACEHOLDER_API_KEY && |apiKey.value| > 0
  }

  /** `shouldUseMockAuth`. */
  function ShouldUseMockAuth(flag: Option<string>, apiKey: Option<string>): (mock: bool)
    ensures mock <==> UseMockAuth(flag) || !IsFirebaseConfigured(apiKey)
  {
    if UseMockAuth(flag) then true
    else if !IsFirebaseConfigured(apiKey) then true
    else false
  }

  /**
    The explicit flag wins whatever the key; otherwise Firebase is used
    exactly for a real key, and an unset, empty or placeholder key falls
    back to the mock.
   */
  lemma ModeDecision(flag: Option<string>, apiKey: Option<string>)
    ensures UseMockAuth(flag) ==> ShouldUseMockAuth(flag, apiKey)
    ensures apiKey.None? || apiKey == Some("") || apiKey == Some(PLACEHOLDER_API_KEY)
            ==> ShouldUseMockAuth(flag, apiKey)
    ensures flag != Some("true") ==>
              (!ShouldUseMockAuth(flag, apiKey)
               <==> apiKey.Some? && apiKey.value != "" && apiKey.value != PLACEHOLDER_API_KEY)
    ensures ShouldUseMockAuth(Some("TRUE"), Some("k")) == false
    ensures UseMockAuth(flag) <==> flag == Some("true")
    ensures ShouldUseMockAuth(Some("true"), apiKey)
  {
  }
}

=== FILE: constants.dfy ===
/**
  Application constants: defaults, validation bounds, subscription-tier
  features and the investment-strategy identifiers.
 */
module Constants {
  import opened Wrappers
  import opened Types

  const MONTHLY_BUDGET: real := 1000.0
  const DEFAULT_WATCHLIST: seq<string> := ["AAPL", "GOOGL", "MSFT", "AMZN", "TSLA"]
  const MAX_WATCHLIST_SIZE_FREE: nat := 10
  const MAX_WATCHLIST_SIZE_PRO: nat := 50

  /** The sentinel the feature table uses for "no limit". */
  const UNLIMITED: int := -1

  const MIN_PASSWORD_LENGTH: nat := 6
  const MIN_BUDGET: real := 10.0
  const MAX_BUDGET: real := 1000000.0

  datatype Features = Features(
    maxWatchlistSize: int,
    aiMessagesPerDay: int,
    portfolioTracking: bool,
    advancedCharts: bool,
    realTimeAlerts: bool,
    prioritySupport: bool)

  /**
    `SUBSCRIPTION_FEATURES[tier]`: the free tier has finite limits and no
    paid feature; both paid tiers have unlimited AI messages, portfolio
    tracking, advanced charts and real-time alerts; only premium has
    priority support and an unbounded watchlist.
   */
  function SubscriptionFeatures(tier: SubscriptionTier): (f: Features)
    ensures f.maxWatchlistSize == UNLIMITED || f.maxWatchlistSize > 0
    ensures f.aiMessagesPerDay == UNLIMITED <==> tier != Free
    ensures f.portfolioTracking <==> tier != Free
    ensures f.advancedCharts == f.portfolioTracking && f.realTimeAlerts == f.portfolioTracking
    ensures f.prioritySupport <==> tier == Premium
    ensures f.maxWatchlistSize == UNLIMITED <==> tier == Premium
  {
    match tier
    case Free => Features(10, 10, false, false, false, false)
    case Pro => Features(50, UNLIMITED, true, true, true, false)
    case Premium => Features(UNLIMITED, UNLIMITED, true, true, true, true)
  }

  /** The watchlist bound of a tier, with the `-1` sentinel read as "no bound". */
  function WatchlistLimit(tier: SubscriptionTier): (r: Option<nat>)
    ensures r.None? <==> SubscriptionFeatures(tier).maxWatchlistSize == UNLIMITED
    ensures r.Some? ==> r.value == SubscriptionFeatures(tier).maxWatchlistSize
  {
    var m := SubscriptionFeatures(tier).maxWatchlistSize;
    if m == UNLIMITED then None else Some(m)
  }

  /** A watchlist of `n` symbols fits the tier. */
  predicate CanHold(tier: SubscriptionTier, n: nat) {
    var limit := WatchlistLimit(tier);
    limit.None? || n <= limit.value
  }

  /** The free and pro rows of the table agree with the standalone limits. */
  lemma TierLimitsAgree()
    ensures WatchlistLimit(Free) == Some(MAX_WATCHLIST_SIZE_FREE)
    ensures WatchlistLimit(Pro) == Some(MAX_WATCHLIST_SIZE_PRO)
  {
  }

  /** Premium holds any number of symbols, and a larger tier holds what a smaller one does. */
  lemma TierLimitsNested(n: nat)
    ensures CanHold(Premium, n)
    ensures CanHold(Free, n) ==> CanHold(Pro, n)
    ensures CanHold(Pro, n) ==> CanHold(Premium, n)
    ensures CanHold(Free, n) <==> n <= MAX_WATCHLIST_SIZE_FREE
  {
  }

  /** The default watchlist fits the free tier. */
  lemma DefaultWatchlistFitsFreeTier()
    ensures |DEFAULT_WATCHLIST| == 5
    ensures CanHold(Free, |DEFAULT_WATCHLIST|)
  {
  }

  /** The budget window is non-empty. */
  lemma BudgetBoundsOrdered()
    ensures 0.0 < MIN_BUDGET < MONTHLY_BUDGET < MAX_BUDGET
  {
  }

  /** The `id` of each entry of `INVESTMENT_STRATEGIES`. */
  function StrategyId(s: InvestmentStrategy): string {
    match s
    case Dividend => "dividend"
    case Growth => "growth"
    case Value => "value"
    case Index => "index"
  }

  /** The ids in the order the strategy list declares them. */
  const STRATEGY_IDS: seq<string> := ["dividend", "growth", "value", "index"]

  /** Reads a strategy id back; any other string is not a strategy. */
  function ParseStrategy(id: string): (r: Option<InvestmentStrategy>)
    ensures r.Some? <==> id in STRATEGY_IDS
  {
    if id == "dividend" then Some(Dividend)
    else if id == "growth" then Some(Growth)
    else if id == "value" then Some(Value)
    else if id == "index" then Some(Index)
    else None
  }

  /** Ids and strategies are in one-to-one correspondence. */
  lemma StrategyIdRoundTrip(s: InvestmentStrategy, id: string)
    ensures ParseStrategy(StrategyId(s)) == Some(s)
    ensures ParseStrategy(id) == Some(s) ==> StrategyId(s) == id
  {
  }

  /** The declared ids are pairwise distinct and name every strategy. */
  lemma StrategyIdsDistinct()
    ensures |STRATEGY_IDS| == 4
    ensures forall i, j :: 0 <= i < j < |STRATEGY_IDS| ==> STRATEGY_IDS[i] != STRATEGY_IDS[j]
    ensures forall s: InvestmentStrategy :: StrategyId(s) in STRATEGY_IDS
  {
  }
}

=== FILE: mock_auth.dfy ===
/**
  The in-memory account store used when Firebase is not configured: a map
  from e-mail to (e-mail, password, profile) plus the signed-in profile.
  Each operation returns the next store and the error it threw, if any.
  Simulated network delays are not modelled; the generated uid is a
  parameter.
 */
module MockAuth {
  import opened Wrappers
  import opened Types
  import Constants

  datatype Account = Account(email: string, password: string, profile: UserProfile)

  datatype Store = Store(users: map<string, Account>, current: Option<UserProfile>)

  /** The store after an operation, and the message it threw (None: it returned normally). */
  datatype Step = Step(store: Store, error: Option<string>)

  const EMAIL_IN_USE := "Email already in use"
  const INVALID_LOGIN := "Invalid email or password"
  const NO_USER := "No user logged in"

  const TEST_EMAIL := "test@quanta.com"
  const TEST_PASSWORD := "password123"

  const TestProfile := UserProfile(
    "mock-test-user", TEST_EMAIL, "Test User", Growth, 5000.0, ["AAPL", "GOOGL", "MSFT"], Free)

  /** The store at module load: the seeded test account, nobody signed in. */
  const Initial := Store(map[TEST_EMAIL := Account(TEST_EMAIL, TEST_PASSWORD, TestProfile)], None)

  /** The profile a fresh mock signup creates. */
  function NewProfile(uid: string, email: string, displayName: string): (p: UserProfile)
    ensures p.email == email && p.displayName == displayName && p.uid == uid
    ensures p.watchlist == [] && p.subscriptionTier == Free
    ensures p.investmentStrategy == Index && p.monthlyBudget == Constants.MONTHLY_BUDGET
  {
    UserProfile(uid, email, displayName, Index, 1000.0, [], Free)
  }

  /** `mockSignup`: a taken e-mail throws; otherwise the account is stored and signed in. */
  function Signup(st: Store, email: string, password: string, displayName: string, uid: string): (r: Step)
    ensures email in st.users <==> r.error.Some?
    ensures r.error.Some? ==> r.store == st && r.error.value == EMAIL_IN_USE
    ensures r.error.None? ==>
              && r.store.users == st.users[email := Account(email, password, NewProfile(uid, email, displayName))]
              && r.store.current == Some(NewProfile(uid, email, displayName))
  {
    if email in st.users then Step(st, Some(EMAIL_IN_USE))
    else
      var profile := NewProfile(uid, email, displayName);
      Step(Store(st.users[email := Account(email, password, profile)], Some(profile)), None)
  }

  /** `mockLogin`: succeeds exactly for a stored e-mail with the exact password. */
  function Login(st: Store, email: string, password: string): (r: Step)
    ensures r.error.None? <==> email in st.users && st.users[email].password == password
    ensures r.store.users == st.users
    ensures r.error.None? ==> r.store.current == Some(st.users[email].profile)
    ensures r.error.Some? ==> r.store == st && r.error.value == INVALID_LOGIN
  {
    if email !in st.users || st.users[email].password != password then Step(st, Some(INVALID_LOGIN))
    else Step(st.(current := Some(st.users[email].profile)), None)
  }

  /** `mockLogout`. */
  function Logout(st: Store): (r: Step)
    ensures r.store.current.None? && r.store.users == st.users && r.error.None?
  {
    Step(st.(current := None), None)
  }

  /**
    `getCurrentMockUser`: nobody before a login or signup; in a consistent
    store, the reported profile is the stored profile of its own entry.
   */
  function CurrentUser(st: Store): (r: Option<UserProfile>)
    ensures r.None? <==> st.current.None?
    ensures Consistent(st) && r.Some? ==> r.value.email in st.users && st.users[r.value.email].profile == r.value
  {
    st.current
  }

  /**
    `updateMockUserProfile`: the signed-in profile is merged with the
    update and written back to the entry keyed by the merged e-mail, if
    there is one; no other entry changes.
   */
  function UpdateProfile(st: Store, updates: ProfileUpdate): (r: Step)
    ensures st.current.None? <==> r.error.Some?
    ensures r.error.Some? ==> r.store == st && r.error.value == NO_USER
    ensures r.error.None? ==> r.store.current == Some(Merge(st.current.value, updates))
    ensures r.store.users.Keys == st.users.Keys
    ensures forall e :: e in st.users && (r.error.Some? || e != r.store.current.value.email) ==>
              r.store.users[e] == st.users[e]
    ensures r.error.None? && r.store.current.value.email in st.users ==>
              var e := r.store.current.value.email;
              r.store.users[e] == st.users[e].(profile := r.store.current.value)
  {
    if st.current.None? then Step(st, Some(NO_USER))
    else
      var merged := Merge(st.current.value, updates);
      var users :=
        if merged.email in st.users
        then st.users[merged.email := st.users[merged.email].(profile := merged)]
        else st.users;
      Step(Store(users, Some(merged)), None)
  }

  /**
    The store is consistent when each entry is keyed by its own e-mail and
    its profile's e-mail, and the signed-in profile is the stored profile of
    its own entry.
   */
  predicate Consistent(st: Store) {
    && (forall e :: e in st.users ==> st.users[e].email == e && st.users[e].profile.email == e)
    && (st.current.Some? ==>
          st.current.value.email in st.users && st.users[st.current.value.email].profile == st.current.value)
  }

  lemma InitialConsistent()
    ensures Consistent(Initial)
    ensures Initial.current.None?
    ensures Initial.users.Keys == {TEST_EMAIL}
    ensures Initial.users[TEST_EMAIL].profile.watchlist == ["AAPL", "GOOGL", "MSFT"]
  {
  }

  /**
    Signup, login and logout keep the store consistent, and so does every
    update that leaves the e-mail alone.
   */
  lemma OperationsKeepConsistent(
    st: Store, email: string, password: string, displayName: string, uid: string, updates: ProfileUpdate)
    requires Consistent(st)
    ensures Consistent(Signup(st, email, password, displayName, uid).store)
    ensures Consistent(Login(st, email, password).store)
    ensures Consistent(Logout(st).store)
    ensures updates.email.None? ==> Consistent(UpdateProfile(st, updates).store)
  {
  }

  /**
    An update that moves the e-mail to an unregistered address leaves the
    signed-in profile detached from every entry: later updates are never
    written back.
   */
  lemma EmailChangeDetaches(st: Store, updates: ProfileUpdate)
    requires Consistent(st) && st.current.Some?
    requires updates.email.Some? && updates.email.value !in st.users
    ensures var r := UpdateProfile(st, updates);
            && r.error.None?
            && r.store.users == st.users
            && !Consistent(r.store)
  {
  }

  /** A fresh signup can log back in with the same password and gets the same profile. */
  lemma SignupThenLogin(st: Store, email: string, password: string, displayName: string, uid: string)
    requires email !in st.users
    ensures var s1 := Signup(st, email, password, displayName, uid).store;
            var s2 := Logout(s1).store;
            var s3 := Login(s2, email, password);
            && s3.error.None?
            && CurrentUser(s3.store) == Some(NewProfile(uid, email, displayName))
  {
  }

  /** Signing up twice with one e-mail fails the second time and changes nothing. */
  lemma SignupTwiceFails(st: Store, email: string, p1: string, p2: string, n1: string, n2: string, u1: string, u2: string)
    ensures var s1 := Signup(st, email, p1, n1, u1).store;
            Signup(s1, email, p2, n2, u2) == Step(s1, Some(EMAIL_IN_USE))
  {
  }

  /** The seeded account logs in with its password and with no other. */
  lemma SeededLogin(password: string)
    ensures Login(Initial, TEST_EMAIL, password).error.None? <==> password == TEST_PASSWORD
    ensures CurrentUser(Login(Initial, TEST_EMAIL, TEST_PASSWORD).store) == Some(TestProfile)
  {
  }
}

=== FILE: profile_form.dfy ===
/**
  The profile page: the form's initial values and the submit handler's
  budget bounds, which decide whether an update is sent.
 */
module ProfileForm {
  import opened Wrappers
  import opened Types
  import Constants
  import MockAuth

  datatype ProfileFormData = ProfileFormData(
    displayName: string, monthlyBudget: real, investmentStrategy: InvestmentStrategy)

  const BUDGET_TOO_LOW := "Budget must be at least $10"
  const BUDGET_TOO_HIGH := "Budget cannot exceed $1,000,000"

  /** The form's initial state: falsy profile values (no profile, "", 0) fall back to defaults. */
  function InitialForm(profile: Option<UserProfile>): (f: ProfileFormData)
    ensures profile.None? ==> f == ProfileFormData("", Constants.MONTHLY_BUDGET, Index)
    ensures profile.Some? ==> f.displayName == profile.value.displayName
                              && f.investmentStrategy == profile.value.investmentStrategy
    ensures profile.Some? ==> f.monthlyBudget == (if profile.value.monthlyBudget != 0.0
                                                  then profile.value.monthlyBudget
                                                  else Constants.MONTHLY_BUDGET)
    ensures f.monthlyBudget != 0.0
  {
    match profile
    case None => ProfileFormData("", 1000.0, Index)
    case Some(p) =>
      ProfileFormData(p.displayName, if p.monthlyBudget != 0.0 then p.monthlyBudget else 1000.0, p.investmentStrategy)
  }

  /** Whether the page rejected the budget, or sent an update. */
  datatype ProfileCheck = BudgetRejected(message: string) | SendUpdate(update: ProfileUpdate)

  /** The update the page sends: display name, budget and strategy, nothing else. */
  function FormUpdate(f: ProfileFormData): ProfileUpdate {
    NoUpdate.(displayName := Some(f.displayName), monthlyBudget := Some(f.monthlyBudget),
              investmentStrategy := Some(f.investmentStrategy))
  }

  /** `handleSubmit`'s budget checks, both bounds inclusive. */
  function ValidateProfile(f: ProfileFormData): (r: ProfileCheck)
    ensures r.SendUpdate? <==> Constants.MIN_BUDGET <= f.monthlyBudget <= Constants.MAX_BUDGET
    ensures f.monthlyBudget < Constants.MIN_BUDGET ==> r == BudgetRejected(BUDGET_TOO_LOW)
    ensures f.monthlyBudget > Constants.MAX_BUDGET ==> r == BudgetRejected(BUDGET_TOO_HIGH)
    ensures r.SendUpdate? ==>
              && r.update.uid.None? && r.update.email.None?
              && r.update.watchlist.None? && r.update.subscriptionTier.None?
  {
    if f.monthlyBudget < Constants.MIN_BUDGET then BudgetRejected(BUDGET_TOO_LOW)
    else if f.monthlyBudget > Constants.MAX_BUDGET then BudgetRejected(BUDGET_TOO_HIGH)
    else SendUpdate(FormUpdate(f))
  }

  /** The bounds themselves are accepted; one cent outside either is not. */
  lemma BudgetBoundsInclusive(name: string, s: InvestmentStrategy)
    ensures ValidateProfile(ProfileFormData(name, 10.0, s)).SendUpdate?
    ensures ValidateProfile(ProfileFormData(name, 1000000.0, s)).SendUpdate?
    ensures ValidateProfile(ProfileFormData(name, 9.99, s)).BudgetRejected?
    ensures ValidateProfile(ProfileFormData(name, 1000000.01, s)).BudgetRejected?
  {
  }

  /**
    Saving the profile through the mock store sets exactly the three form
    fields, keeps the watchlist and e-mail, and keeps the store consistent.
   */
  lemma SaveKeepsAccountStore(st: MockAuth.Store, f: ProfileFormData)
    requires MockAuth.Consistent(st) && st.current.Some?
    requires ValidateProfile(f).SendUpdate?
    ensures var r := MockAuth.UpdateProfile(st, ValidateProfile(f).update);
            && r.error.None?
            && MockAuth.Consistent(r.store)
            && r.store.current == Some(st.current.value.(
                 displayName := f.displayName, monthlyBudget := f.monthlyBudget,
                 investmentStrategy := f.investmentStrategy))
  {
    MockAuth.OperationsKeepConsistent(st, "", "", "", "", ValidateProfile(f).update);
  }
}

=== FILE: signup_form.dfy ===
/**
  The signup page's submit handler: four checks in a fixed order, then a
  call to `signup` with the fields exactly as typed.
 */
module SignupForm {
  import opened Text
  import Constants

  datatype SignupFormData = SignupFormData(
    displayName: string, email: string, password: string, confirmPassword: string)

  const PASSWORDS_DIFFER := "Passwords do not match"
  const PASSWORD_TOO_SHORT := "Password must be at least 6 characters"
  const INVALID_EMAIL := "Please enter a valid email address"
  const NAME_MISSING := "Please enter your name"
  const SIGNUP_FAILED := "Failed to create account. Please try again."

  /** A character of `[^\s@]`. */
  predicate EmailChar(c: char) {
    !IsWhitespace(c) && c != '@'
  }

  /** One `[^\s@]+` segment. */
  predicate EmailPart(p: string) {
    |p| > 0 && forall k :: 0 <= k < |p| ==> EmailChar(p[k])
  }

  /**
    `EMAIL_REGEX` = `^[^\s@]+@[^\s@]+\.[^\s@]+$`: the string splits at an
    `@` (position i) and a later `.` (position j) into three non-empty
    segments free of white space and `@`.
   */
  predicate IsValidEmail(s: string)
    ensures IsValidEmail(s) ==> |s| >= 5 && '@' in s && '.' in s
  {
    exists i, j | 0 < i < j < |s| - 1 ::
      && s[i] == '@' && s[j] == '.'
      && EmailPart(s[..i]) && EmailPart(s[i + 1..j]) && EmailPart(s[j + 1..])
  }

  /** A valid address has no white space and exactly one `@`, which is neither first nor last. */
  lemma ValidEmailShape(s: string)
    requires IsValidEmail(s)
    ensures forall k :: 0 <= k < |s| ==> !IsWhitespace(s[k])
    ensures exists i :: 0 < i < |s| - 1 && s[i] == '@' && forall k :: 0 <= k < |s| && s[k] == '@' ==> k == i
  {
    var i, j :| 0 < i < j < |s| - 1 && s[i] == '@' && s[j] == '.'
               && EmailPart(s[..i]) && EmailPart(s[i + 1..j]) && EmailPart(s[j + 1..]);
    forall k | 0 <= k < |s|
      ensures !IsWhitespace(s[k]) && (s[k] == '@' ==> k == i)
    {
      if k < i {
        assert s[..i][k] == s[k];
      } else if i < k < j {
        assert s[i + 1..j][k - i - 1] == s[k];
      } else if j < k {
        assert s[j + 1..][k - j - 1] == s[k];
      }
    }
  }

  /** Exhibiting the two split points shows an address valid. */
  lemma EmailSplit(s: string, i: int, j: int)
    requires 0 < i < j < |s| - 1 && s[i] == '@' && s[j] == '.'
    requires EmailPart(s[..i]) && EmailPart(s[i + 1..j]) && EmailPart(s[j + 1..])
    ensures IsValidEmail(s)
  {
  }

  /** A dotted domain is what the pattern demands: "a@b.c" and the seeded address pass. */
  lemma EmailAccepted()
    ensures IsValidEmail("a@b.c")
    ensures IsValidEmail("test@quanta.com")
  {
    var a := "a@b.c";
    assert a[..1] == "a" && a[2..3] == "b" && a[4..] == "c";
    EmailSplit(a, 1, 3);
    var t := "test@quanta.com";
    var local, host, tld := t[..4], t[5..11], t[12..];
    assert local == "test" && host == "quanta" && tld == "com";
    EmailSplit(t, 4, 11);
  }

  /** No dot after the `@`, or nothing before it, fails the pattern. */
  lemma EmailRejected()
    ensures !IsValidEmail("a@b")
    ensures !IsValidEmail("@b.c")
  {
    var s := "@b.c";
    assert forall i :: 0 < i < |s| ==> s[i] != '@';
  }

  /** Whether the page rejected the form with a message, or called `signup`. */
  datatype SignupCheck = Rejected(message: string) | CallSignup(email: string, password: string, displayName: string)

  /** The validation chain of `handleSubmit`. */
  function ValidateSignup(f: SignupFormData): (r: SignupCheck)
    ensures r.CallSignup? <==>
              && f.password == f.confirmPassword
              && |f.password| >= Constants.MIN_PASSWORD_LENGTH
              && IsValidEmail(f.email)
              && !IsBlank(f.displayName)
    ensures r.CallSignup? ==> r == CallSignup(f.email, f.password, f.displayName)
    ensures f.password != f.confirmPassword ==> r == Rejected(PASSWORDS_DIFFER)
  {
    TrimEmptyIffBlank(f.displayName);
    if f.password != f.confirmPassword then Rejected(PASSWORDS_DIFFER)
    else if |f.password| < Constants.MIN_PASSWORD_LENGTH then Rejected(PASSWORD_TOO_SHORT)
    else if !IsValidEmail(f.email) then Rejected(INVALID_EMAIL)
    else if |Trim(f.displayName)| == 0 then Rejected(NAME_MISSING)
    else CallSignup(f.email, f.password, f.displayName)
  }

  /** Each check reports only once every earlier check has passed. */
  lemma SignupCheckOrder(f: SignupFormData)
    ensures ValidateSignup(f) == Rejected(PASSWORD_TOO_SHORT)
            <==> f.password == f.confirmPassword && |f.password| < Constants.MIN_PASSWORD_LENGTH
    ensures ValidateSignup(f) == Rejected(INVALID_EMAIL)
            <==> f.password == f.confirmPassword && |f.password| >= Constants.MIN_PASSWORD_LENGTH
                 && !IsValidEmail(f.email)
    ensures ValidateSignup(f) == Rejected(NAME_MISSING)
            <==> f.password == f.confirmPassword && |f.password| >= Constants.MIN_PASSWORD_LENGTH
                 && IsValidEmail(f.email) && IsBlank(f.displayName)
  {
    TrimEmptyIffBlank(f.displayName);
  }

  /** Six characters is long enough, five is not; a padded name is passed on untrimmed. */
  lemma SignupBoundaryExamples()
    ensures ValidateSignup(SignupFormData(" Ann ", "a@b.c", "secret", "secret"))
            == CallSignup("a@b.c", "secret", " Ann ")
    ensures ValidateSignup(SignupFormData("Ann", "a@b.c", "short", "short")) == Rejected(PASSWORD_TOO_SHORT)
  {
    EmailAccepted();
    var name := " Ann ";
    assert name[1] == 'A';
    assert !IsBlank(name);
  }

  /** How the awaited `signup` settled: created, or threw with a message (possibly empty). */
  datatype SignupReply = Created | Failed(message: string)

  /** The page after submit: its error text ("" for none), whether `signup` ran, whether it navigated. */
  datatype SignupPage = SignupPage(error: string, called: bool, navigated: bool)

  /** `handleSubmit` including the outcome of `signup`. */
  function HandleSubmit(f: SignupFormData, reply: SignupReply): (r: SignupPage)
    ensures r.called <==> ValidateSignup(f).CallSignup?
    ensures r.navigated <==> r.called && reply.Created?
    ensures !r.called ==> r.error == ValidateSignup(f).message
    ensures r.called && reply.Failed? ==> r.error != ""
    ensures r.called && reply.Failed? ==> r.error == (if reply.message != "" then reply.message else SIGNUP_FAILED)
    ensures r.navigated ==> r.error == ""
  {
    match ValidateSignup(f)
    case Rejected(message) => SignupPage(message, false, false)
    case CallSignup(_, _, _) =>
      match reply
      case Created => SignupPage("", true, true)
      case Failed(message) => SignupPage(if message != "" then message else SIGNUP_FAILED, true, false)
  }
}

=== FILE: stock_service.dfy ===
/**
  The quote client: symbol syntax, classification of one provider reply
  into a `Stock` or one of four error messages, and the batch fetch that
  keeps only the fulfilled quotes.

  The HTTP provider is a parameter: `provider(symbol)` is what the quote
  endpoint and the company-profile endpoint answer for that (upper-cased)
  symbol. Every outbound call is recorded as a `Request`.
 */
module StockService {
  import opened Wrappers
  import opened Text
  import opened Types
  import Constants

  const MAX_SYMBOL_LENGTH: nat := 5

  /** The pattern `^[A-Z]{1,5}$`. */
  predicate IsTicker(t: string) {
    1 <= |t| <= MAX_SYMBOL_LENGTH && forall i :: 0 <= i < |t| ==> IsAsciiUpper(t[i])
  }

  /** `validateSymbol`: the upper-cased symbol must be 1 to 5 capital letters; nothing is trimmed. */
  function ValidateSymbol(symbol: string): (ok: bool)
    ensures ok <==> 1 <= |symbol| <= MAX_SYMBOL_LENGTH
                    && forall i :: 0 <= i < |symbol| ==> IsAsciiLetter(symbol[i])
  {
    IsTicker(ToUpper(symbol))
  }

  /** Validation ignores case, and white space or any other non-letter anywhere rejects. */
  lemma ValidateSymbolCaseInsensitive(s: string)
    ensures ValidateSymbol(s) == ValidateSymbol(ToUpper(s))
    ensures ValidateSymbol(s) ==> IsTicker(ToUpper(s))
    ensures !ValidateSymbol(" " + s) && !ValidateSymbol(s + " ")
    ensures |s| == 0 || |s| > MAX_SYMBOL_LENGTH ==> !ValidateSymbol(s)
  {
    assert (" " + s)[0] == ' ';
    assert (s + " ")[|s|] == ' ';
  }

  /** Every default ticker passes validation and is already in normal form. */
  lemma DefaultWatchlistValid()
    ensures forall s :: s in Constants.DEFAULT_WATCHLIST ==> ValidateSymbol(s) && IsTicker(s)
  {
    forall s | s in Constants.DEFAULT_WATCHLIST
      ensures ValidateSymbol(s) && IsTicker(s)
    {
      assert s == "AAPL" || s == "GOOGL" || s == "MSFT" || s == "AMZN" || s == "TSLA";
    }
  }

  // ---------------------------------------------------------------------------
  // Provider replies
  // ---------------------------------------------------------------------------

  /** An HTTP reply: a body, or an error with the response status if there was a response. */
  datatype Response<T> = Ok(data: T) | Failed(status: Option<int>)

  /** The `/quote` body: current price `c` (possibly missing), change `d`, percent `dp`. */
  datatype QuoteData = QuoteData(c: Option<real>, d: real, dp: real)

  /** The `/stock/profile2` body: the company name, possibly missing. */
  datatype ProfileData = ProfileData(name: Option<string>)

  datatype ProviderReply = ProviderReply(quote: Response<QuoteData>, profile: Response<ProfileData>)

  type Provider = string -> ProviderReply

  datatype Request = QuoteRequest(symbol: string) | ProfileRequest(symbol: string)

  // ---------------------------------------------------------------------------
  // getStockQuote
  // ---------------------------------------------------------------------------

  datatype QuoteError = NotFound | RateLimited | Unauthorized | FetchFailed

  /** The message each error is thrown with: never empty, and different for each error. */
  function QuoteErrorMessage(e: QuoteError): (m: string)
    ensures |m| > 0
  {
    match e
    case NotFound => "Stock symbol not found. Please check and try again."
    case RateLimited => "Too many requests. Please wait a moment."
    case Unauthorized => "API key invalid. Please check configuration."
    case FetchFailed => "Failed to fetch stock data. Please try again."
  }

  /** The user can tell the failures apart: no two errors share a message. */
  lemma QuoteErrorMessageInjective(e1: QuoteError, e2: QuoteError)
    ensures QuoteErrorMessage(e1) == QuoteErrorMessage(e2) ==> e1 == e2
  {
  }

  /** How a failed HTTP request is reported: 429, 401, or anything else. */
  function StatusError(status: Option<int>): (e: QuoteError)
    ensures e == RateLimited <==> status == Some(429)
    ensures e == Unauthorized <==> status == Some(401)
    ensures e != NotFound
  {
    if status == Some(429) then RateLimited
    else if status == Some(401) then Unauthorized
    else FetchFailed
  }

  /** `c` is truthy: present and non-zero. */
  predicate PriceFound(q: QuoteData) {
    q.c.Some? && q.c.value != 0.0
  }

  /** `name` is truthy: present and non-empty. */
  predicate NamePresent(p: ProfileData) {
    p.name.Some? && p.name.value != ""
  }

  datatype Fetched = Fetched(result: Result<Stock, QuoteError>, requests: seq<Request>)

  /**
    `getStockQuote`: one quote request; a missing or zero price is "not
    found" and stops there; otherwise one profile request, whose failure
    fails the whole quote just like a failed quote request.
   */
  function GetStockQuote(symbol: string, provider: Provider): (r: Fetched)
    ensures r.requests == [QuoteRequest(ToUpper(symbol))]
            || r.requests == [QuoteRequest(ToUpper(symbol)), ProfileRequest(ToUpper(symbol))]
    ensures |r.requests| == 2 <==> provider(ToUpper(symbol)).quote.Ok? && PriceFound(provider(ToUpper(symbol)).quote.data)
    ensures r.result.Success? ==> r.result.value.symbol == ToUpper(symbol)
  {
    var up := ToUpper(symbol);
    var reply := provider(up);
    match reply.quote
    case Failed(status) => Fetched(Failure(StatusError(status)), [QuoteRequest(up)])
    case Ok(q) =>
      if !PriceFound(q) then
        Fetched(Failure(NotFound), [QuoteRequest(up)])
      else
        var asked := [QuoteRequest(up), ProfileRequest(up)];
        match reply.profile
        case Failed(status) => Fetched(Failure(StatusError(status)), asked)
        case Ok(p) =>
          var name := if NamePresent(p) then p.name.value else up;
          Fetched(Success(Stock(up, name, q.c.value, q.d, q.dp)), asked)
  }

  /** What the provider was asked about a symbol, and nothing else. */
  function ReplyFor(symbol: string, provider: Provider): ProviderReply {
    provider(ToUpper(symbol))
  }

  /** A quote succeeds exactly when the price is found and both requests answer. */
  lemma QuoteSucceedsIff(symbol: string, provider: Provider)
    ensures var reply := ReplyFor(symbol, provider);
            GetStockQuote(symbol, provider).result.Success?
            <==> reply.quote.Ok? && PriceFound(reply.quote.data) && reply.profile.Ok?
  {
  }

  /** A successful quote carries the upper-cased symbol, the price, and the name or the symbol as fallback. */
  lemma QuoteSuccessFields(symbol: string, provider: Provider)
    requires GetStockQuote(symbol, provider).result.Success?
    ensures var s := GetStockQuote(symbol, provider).result.value;
            var reply := ReplyFor(symbol, provider);
            && s.symbol == ToUpper(symbol)
            && s.price == reply.quote.data.c.value && s.price != 0.0
            && (NamePresent(reply.profile.data) ==> s.name == reply.profile.data.name.value)
            && (!NamePresent(reply.profile.data) ==> s.name == ToUpper(symbol))
  {
  }

  /** A missing or zero price is "not found", and the profile endpoint is never asked. */
  lemma NotFoundSkipsProfile(symbol: string, provider: Provider)
    ensures var r := GetStockQuote(symbol, provider);
            var reply := ReplyFor(symbol, provider);
            r.result == Failure(NotFound)
            <==> reply.quote.Ok? && !PriceFound(reply.quote.data)
    ensures var r := GetStockQuote(symbol, provider);
            r.result == Failure(NotFound) ==> r.requests == [QuoteRequest(ToUpper(symbol))]
  {
  }

  /** 429 and 401 from either request select their own messages; every other failure is generic. */
  lemma FailureClassification(symbol: string, provider: Provider)
    ensures var r := GetStockQuote(symbol, provider);
            var reply := ReplyFor(symbol, provider);
            var failing :=
              if reply.quote.Failed? then reply.quote.status
              else if PriceFound(reply.quote.data) && reply.profile.Failed? then reply.profile.status
              else None;
            && (r.result == Failure(RateLimited) <==> (r.result.Failure? && failing == Some(429)))
            && (r.result == Failure(Unauthorized) <==> (r.result.Failure? && failing == Some(401)))
            && (r.result == Failure(FetchFailed)
                <==> (r.result.Failure? && r.result.error != NotFound
                      && failing != Some(429) && failing != Some(401)))
  {
  }

  /** A symbol and its upper-cased form are the same request. */
  lemma {:induction false} QuoteCaseInsensitive(symbol: string, provider: Provider)
    ensures GetStockQuote(symbol, provider) == GetStockQuote(ToUpper(symbol), provider)
  {
    ToUpperIdempotent(symbol);
  }

  // ---------------------------------------------------------------------------
  // getMultipleQuotes
  // ---------------------------------------------------------------------------

  /** The fulfilled values of settled results, in order. */
  function Fulfilled(settled: seq<Result<Stock, QuoteError>>): (r: seq<Stock>)
    ensures |r| <= |settled|
    decreases |settled|
  {
    if |settled| == 0 then []
    else
      var last := settled[|settled| - 1];
      Fulfilled(settled[..|settled| - 1]) + (if last.Success? then [last.value] else [])
  }

  /** `Promise.allSettled(symbols.map(getStockQuote))`: one settled result per symbol. */
  function Settle(symbols: seq<string>, provider: Provider): (r: seq<Result<Stock, QuoteError>>)
    ensures |r| == |symbols|
  {
    seq(|symbols|, i requires 0 <= i < |symbols| => GetStockQuote(symbols[i], provider).result)
  }

  /** Reference definition of the batch: the successful quotes, in input order. */
  function Successes(symbols: seq<string>, provider: Provider): seq<Stock> {
    Fulfilled(Settle(symbols, provider))
  }

  /** Reference definition of the traffic of a batch: each symbol's own requests, symbol after symbol. */
  function AllRequests(symbols: seq<string>, provider: Provider): (r: seq<Request>)
    ensures |symbols| <= |r| <= 2 * |symbols|
    decreases |symbols|
  {
    if |symbols| == 0 then []
    else AllRequests(symbols[..|symbols| - 1], provider) + GetStockQuote(symbols[|symbols| - 1], provider).requests
  }

  /** The traffic of a split list is the traffic of its parts. */
  lemma {:induction false} AllRequestsAppend(a: seq<string>, b: seq<string>, provider: Provider)
    ensures AllRequests(a + b, provider) == AllRequests(a, provider) + AllRequests(b, provider)
    decreases |b|
  {
    if |b| == 0 {
      assert a + b == a;
    } else {
      var b' := b[..|b| - 1];
      assert (a + b)[..|a + b| - 1] == a + b';
      AllRequestsAppend(a, b', provider);
    }
  }

  /** A one-symbol batch makes exactly that symbol's requests: a quote request, then a profile request when a price came back. */
  lemma AllRequestsSingle(symbol: string, provider: Provider)
    ensures AllRequests([symbol], provider) == GetStockQuote(symbol, provider).requests
  {
    assert [symbol][..0] == [];
  }

  lemma {:induction false} FulfilledAppend(a: seq<Result<Stock, QuoteError>>, b: seq<Result<Stock, QuoteError>>)
    ensures Fulfilled(a + b) == Fulfilled(a) + Fulfilled(b)
    decreases |b|
  {
    if |b| == 0 {
      assert a + b == a;
    } else {
      var b' := b[..|b| - 1];
      assert (a + b)[..|a + b| - 1] == a + b';
      FulfilledAppend(a, b');
    }
  }

  /** Every fulfilled value comes from a settled success, and every success is kept. */
  lemma {:induction false} FulfilledMembership(settled: seq<Result<Stock, QuoteError>>, s: Stock)
    ensures s in Fulfilled(settled) <==> Success(s) in settled
    decreases |settled|
  {
    if |settled| > 0 {
      var init := settled[..|settled| - 1];
      FulfilledMembership(init, s);
      assert settled == init + [settled[|settled| - 1]];
    }
  }

  /** The batch result keeps exactly as many quotes as succeeded, so all succeed iff none is dropped. */
  lemma {:induction false} FulfilledAllOrNone(settled: seq<Result<Stock, QuoteError>>)
    ensures |Fulfilled(settled)| == |settled| <==> forall i :: 0 <= i < |settled| ==> settled[i].Success?
    ensures (forall i :: 0 <= i < |settled| ==> settled[i].Failure?) ==> Fulfilled(settled) == []
    decreases |settled|
  {
    if |settled| > 0 {
      var init := settled[..|settled| - 1];
      FulfilledAllOrNone(init);
      assert forall i :: 0 <= i < |init| ==> init[i] == settled[i];
    }
  }

  /** The batch is order-preserving: fetching a split list and concatenating gives the same quotes. */
  lemma SuccessesAppend(a: seq<string>, b: seq<string>, provider: Provider)
    ensures Successes(a + b, provider) == Successes(a, provider) + Successes(b, provider)
  {
    assert Settle(a + b, provider) == Settle(a, provider) + Settle(b, provider);
    FulfilledAppend(Settle(a, provider), Settle(b, provider));
  }

  /** A quote is in the batch result exactly when some input symbol fetched it. */
  lemma SuccessesMembership(symbols: seq<string>, provider: Provider, s: Stock)
    ensures s in Successes(symbols, provider)
            <==> exists i :: 0 <= i < |symbols| && GetStockQuote(symbols[i], provider).result == Success(s)
  {
    var settled := Settle(symbols, provider);
    FulfilledMembership(settled, s);
    assert forall i :: 0 <= i < |symbols| ==> settled[i] == GetStockQuote(symbols[i], provider).result;
  }

  /** Nothing is dropped when every symbol succeeds; nothing is kept when every symbol fails. */
  lemma SuccessesAllOrNone(symbols: seq<string>, provider: Provider)
    ensures |Successes(symbols, provider)| == |symbols|
            <==> forall i :: 0 <= i < |symbols| ==> GetStockQuote(symbols[i], provider).result.Success?
    ensures (forall i :: 0 <= i < |symbols| ==> GetStockQuote(symbols[i], provider).result.Failure?)
            ==> Successes(symbols, provider) == []
  {
    var settled := Settle(symbols, provider);
    FulfilledAllOrNone(settled);
    assert forall i :: 0 <= i < |symbols| ==> settled[i] == GetStockQuote(symbols[i], provider).result;
  }

  /**
    `getMultipleQuotes`: an empty list returns at once with no request;
    otherwise every symbol is fetched, every outcome is awaited, and only
    the fulfilled quotes are returned, in input order. The batch itself
    never fails.
   */
  method GetMultipleQuotes(symbols: seq<string>, provider: Provider)
    returns (stocks: seq<Stock>, requests: seq<Request>)
    ensures stocks == Successes(symbols, provider)
    ensures |stocks| <= |symbols|
    ensures multiset(requests) == multiset(AllRequests(symbols, provider))
    ensures |symbols| <= |requests| <= 2 * |symbols|
    ensures forall k :: 0 <= k < |requests| ==>
              exists i :: 0 <= i < |symbols| && requests[k] in GetStockQuote(symbols[i], provider).requests
  {
    if |symbols| == 0 {
      return [], [];
    }
    var settled: seq<Result<Stock, QuoteError>> := [];
    requests := [];
    var i := 0;
    while i < |symbols|
      invariant 0 <= i <= |symbols|
      invariant settled == Settle(symbols[..i], provider)
      invariant requests == AllRequests(symbols[..i], provider)
      invariant i <= |requests| <= 2 * i
      invariant forall k :: 0 <= k < |requests| ==>
                  exists j :: 0 <= j < i && requests[k] in GetStockQuote(symbols[j], provider).requests
    {
      var f := GetStockQuote(symbols[i], provider);
      settled := settled + [f.result];
      forall k | |requests| <= k < |requests| + |f.requests|
        ensures exists j :: 0 <= j < i + 1
                  && (requests + f.requests)[k] in GetStockQuote(symbols[j], provider).requests
      {
        assert (requests + f.requests)[k] == f.requests[k - |requests|];
      }
      requests := requests + f.requests;
      i := i + 1;
      assert symbols[..i] == symbols[..i - 1] + [symbols[i - 1]];
    }
    assert symbols[..i] == symbols;
    stocks := [];
    var j := 0;
    while j < |settled|
      invariant 0 <= j <= |settled|
      invariant stocks == Fulfilled(settled[..j])
    {
      assert settled[..j + 1][..j] == settled[..j];
      if settled[j].Success? {
        stocks := stocks + [settled[j].value];
      }
      j := j + 1;
    }
    assert settled[..j] == settled;
  }
}

=== FILE: text.dfy ===
/**
  Character and string helpers used by the validators: ASCII letter classes,
  `String.prototype.toUpperCase` restricted to ASCII, the whitespace class
  of JavaScript regular expressions (`\s`) and `String.prototype.trim`.
 */
module Text {

  predicate IsAsciiUpper(c: char) { 'A' <= c <= 'Z' }

  predicate IsAsciiLower(c: char) { 'a' <= c <= 'z' }

  predicate IsAsciiLetter(c: char) { IsAsciiUpper(c) || IsAsciiLower(c) }

  /** Upper-cases one character; only the 26 ASCII lower-case letters change. */
  function UpperChar(c: char): (u: char)
    ensures IsAsciiLetter(u) <==> IsAsciiLetter(c)
    ensures !IsAsciiLower(u)
    ensures !IsAsciiLower(c) ==> u == c
    ensures IsAsciiLower(c) ==> u as int == c as int - 32
  {
    if IsAsciiLower(c) then (c as int - 32) as char else c
  }

  /** `s.toUpperCase()` for ASCII: same length, every character upper-cased. */
  function ToUpper(s: string): (r: string)
    ensures |r| == |s|
    ensures forall i :: 0 <= i < |s| ==> r[i] == UpperChar(s[i])
  {
    seq(|s|, i requires 0 <= i < |s| => UpperChar(s[i]))
  }

  /** Upper-casing twice is upper-casing once. */
  lemma ToUpperIdempotent(s: string)
    ensures ToUpper(ToUpper(s)) == ToUpper(s)
  {
  }

  /** A string is already upper-case exactly when upper-casing leaves it alone. */
  lemma ToUpperFixedPoint(s: string)
    ensures ToUpper(s) == s <==> forall i :: 0 <= i < |s| ==> !IsAsciiLower(s[i])
  {
    if forall i :: 0 <= i < |s| ==> !IsAsciiLower(s[i]) {
      assert forall i :: 0 <= i < |s| ==> ToUpper(s)[i] == s[i];
    }
  }

  /**
    The characters JavaScript's `\s` class and `String.prototype.trim`
    treat as white space: the ASCII controls TAB..CR, SPACE, NBSP, OGHAM
    SPACE MARK, U+2000..U+200A, the line and paragraph separators, NNBSP,
    MMSP, IDEOGRAPHIC SPACE and the byte-order mark.
   */
  predicate IsWhitespace(c: char) {
    var n := c as int;
    (0x09 <= n <= 0x0D) || n == 0x20 || n == 0xA0 || n == 0x1680
    || (0x2000 <= n <= 0x200A) || n == 0x2028 || n == 0x2029
    || n == 0x202F || n == 0x205F || n == 0x3000 || n == 0xFEFF
  }

  /** Every character of `s` is white space (vacuously true for ""). */
  predicate IsBlank(s: string) {
    forall i :: 0 <= i < |s| ==> IsWhitespace(s[i])
  }

  /** Drops the leading white space of `s`. */
  function TrimStart(s: string): (r: string)
    ensures |r| <= |s| && r == s[|s| - |r|..]
    ensures r == [] || !IsWhitespace(r[0])
    ensures IsBlank(s[..|s| - |r|])
    decreases |s|
  {
    if |s| > 0 && IsWhitespace(s[0]) then TrimStart(s[1..]) else s
  }

  /** Drops the trailing white space of `s`. */
  function TrimEnd(s: string): (r: string)
    ensures |r| <= |s| && r == s[..|r|]
    ensures r == [] || !IsWhitespace(r[|r| - 1])
    ensures IsBlank(s[|r|..])
    decreases |s|
  {
    if |s| > 0 && IsWhitespace(s[|s| - 1]) then TrimEnd(s[..|s| - 1]) else s
  }

  /** `s.trim()`. */
  function Trim(s: string): string {
    TrimEnd(TrimStart(s))
  }

  /** A string made only of white space trims to nothing from the front. */
  lemma {:induction false} TrimStartOfBlank(s: string)
    requires IsBlank(s)
    ensures TrimStart(s) == []
    decreases |s|
  {
    if |s| > 0 {
      assert IsBlank(s[1..]) by {
        assert forall i :: 0 <= i < |s| - 1 ==> s[1..][i] == s[i + 1];
      }
      TrimStartOfBlank(s[1..]);
    }
  }

  /** A character that is not white space survives both ends of a trim. */
  lemma TrimKeepsContent(s: string, k: nat)
    requires k < |s| && !IsWhitespace(s[k])
    ensures Trim(s) != []
  {
    var t := TrimStart(s);
    var d := |s| - |t|;
    assert forall i :: 0 <= i < d ==> IsWhitespace(s[i]) by {
      assert forall i :: 0 <= i < d ==> s[..d][i] == s[i];
    }
    assert d <= k;
    assert t[k - d] == s[k];
    var u := TrimEnd(t);
    assert forall i :: |u| <= i < |t| ==> IsWhitespace(t[i]) by {
      assert forall i :: |u| <= i < |t| ==> t[|u|..][i - |u|] == t[i];
    }
    assert k - d < |u|;
  }

  /** `s.trim()` is empty exactly when `s` is all white space. */
  lemma TrimEmptyIffBlank(s: string)
    ensures Trim(s) == [] <==> IsBlank(s)
  {
    if IsBlank(s) {
      TrimStartOfBlank(s);
    } else {
      var k :| 0 <= k < |s| && !IsWhitespace(s[k]);
      TrimKeepsContent(s, k);
    }
  }
}

=== FILE: types.dfy ===
/**
  The records the application passes around (`Stock`, `UserProfile`,
  `InvestmentStrategy`, `SubscriptionTier`) and the partial-update merge
  used wherever a profile is changed.
  Timestamps (`createdAt`, `updatedAt`, `lastUpdated`) are not modelled.
 */
module Types {
  import opened Wrappers

  datatype InvestmentStrategy = Dividend | Growth | Value | Index

  datatype SubscriptionTier = Free | Pro | Premium

  /** A quote as shown on the dashboard; numbers are exact reals. */
  datatype Stock = Stock(
    symbol: string,
    name: string,
    price: real,
    change: real,
    changePercent: real)

  datatype UserProfile = UserProfile(
    uid: string,
    email: string,
    displayName: string,
    investmentStrategy: InvestmentStrategy,
    monthlyBudget: real,
    watchlist: seq<string>,
    subscriptionTier: SubscriptionTier)

  /** `Partial<UserProfile>`: a field is overridden exactly when it is `Some`. */
  datatype ProfileUpdate = ProfileUpdate(
    uid: Option<string>,
    email: Option<string>,
    displayName: Option<string>,
    investmentStrategy: Option<InvestmentStrategy>,
    monthlyBudget: Option<real>,
    watchlist: Option<seq<string>>,
    subscriptionTier: Option<SubscriptionTier>)

  const NoUpdate := ProfileUpdate(None, None, None, None, None, None, None)

  function Pick<T>(o: Option<T>, fallback: T): T {
    if o.Some? then o.value else fallback
  }

  /** Object spread of an update over a profile: every field the update carries wins, the rest is kept. */
  function Merge(p: UserProfile, u: ProfileUpdate): (r: UserProfile)
    ensures u.uid.None? ==> r.uid == p.uid
    ensures u.uid.Some? ==> r.uid == u.uid.value
    ensures u.email.None? ==> r.email == p.email
    ensures u.email.Some? ==> r.email == u.email.value
    ensures u.displayName.None? ==> r.displayName == p.displayName
    ensures u.displayName.Some? ==> r.displayName == u.displayName.value
    ensures u.investmentStrategy.None? ==> r.investmentStrategy == p.investmentStrategy
    ensures u.investmentStrategy.Some? ==> r.investmentStrategy == u.investmentStrategy.value
    ensures u.monthlyBudget.None? ==> r.monthlyBudget == p.monthlyBudget
    ensures u.monthlyBudget.Some? ==> r.monthlyBudget == u.monthlyBudget.value
    ensures u.watchlist.None? ==> r.watchlist == p.watchlist
    ensures u.watchlist.Some? ==> r.watchlist == u.watchlist.value
    ensures u.subscriptionTier.None? ==> r.subscriptionTier == p.subscriptionTier
    ensures u.subscriptionTier.Some? ==> r.subscriptionTier == u.subscriptionTier.value
  {
    UserProfile(
      Pick(u.uid, p.uid),
      Pick(u.email, p.email),
      Pick(u.displayName, p.displayName),
      Pick(u.investmentStrategy, p.investmentStrategy),
      Pick(u.monthlyBudget, p.monthlyBudget),
      Pick(u.watchlist, p.watchlist),
      Pick(u.subscriptionTier, p.subscriptionTier))
  }

  /** Two updates applied in turn; the later one wins field by field. */
  function Then(first: ProfileUpdate, second: ProfileUpdate): ProfileUpdate {
    ProfileUpdate(
      if second.uid.Some? then second.uid else first.uid,
      if second.email.Some? then second.email else first.email,
      if second.displayName.Some? then second.displayName else first.displayName,
      if second.investmentStrategy.Some? then second.investmentStrategy else first.investmentStrategy,
      if second.monthlyBudget.Some? then second.monthlyBudget else first.monthlyBudget,
      if second.watchlist.Some? then second.watchlist else first.watchlist,
      if second.subscriptionTier.Some? then second.subscriptionTier else first.subscriptionTier)
  }

  /** An empty update changes nothing. */
  lemma MergeNoUpdate(p: UserProfile)
    ensures Merge(p, NoUpdate) == p
  {
  }

  /** Re-applying the same update is harmless. */
  lemma MergeIdempotent(p: UserProfile, u: ProfileUpdate)
    ensures Merge(Merge(p, u), u) == Merge(p, u)
  {
  }

  /** Merging twice is merging once with the combined update. */
  lemma MergeThen(p: UserProfile, u1: ProfileUpdate, u2: ProfileUpdate)
    ensures Merge(Merge(p, u1), u2) == Merge(p, Then(u1, u2))
  {
  }
}

=== FILE: watchlist_manager.dfy ===
/**
  The watchlist handlers of the dashboard. `handleAdd` runs a fixed guard
  chain (signed in, syntax, duplicate, size, quote verification) and then
  persists before it updates the local list; `handleRemove` persists the
  removal and then filters the local list.

  The signed-in user, the store's answers and the provider are inputs. The
  effects a handler performs are recorded in order as `Effect`s.
 */
module WatchlistManager {
  import opened Wrappers
  import opened Text
  import opened Types
  import Constants
  import StockService

  /** What a document-store or profile write answered: done, or an error with its message. */
  datatype StoreReply = Stored | StoreFailed(message: string)

  datatype Effect =
    | Http(request: StockService.Request)
    | PersistAdd(uid: string, symbol: string)
    | PersistRemove(uid: string, symbol: string)
    | UpdateProfile(watchlist: seq<string>)

  datatype AddError =
    | NotLoggedIn
    | InvalidSymbol
    | AlreadyPresent
    | WatchlistFull
    | QuoteFailed(cause: StockService.QuoteError)
    | WriteFailed(message: string)

  /**
    The message `handleAdd` throws for each error. The guard and quote
    messages are fixed, non-empty and pairwise different; a failed write
    passes its own message through.
   */
  function AddErrorMessage(e: AddError): (m: string)
    ensures !e.WriteFailed? ==> |m| > 0
    ensures e.WriteFailed? ==> m == e.message
  {
    match e
    case NotLoggedIn => "You must be logged in to add stocks"
    case InvalidSymbol => "Please enter a valid stock symbol (1-5 letters)"
    case AlreadyPresent => "This stock is already in your watchlist"
    case WatchlistFull => "Watchlist full (10/10). Remove a stock to add another or upgrade to Pro."
    case QuoteFailed(cause) => StockService.QuoteErrorMessage(cause)
    case WriteFailed(message) => message
  }

  /** Apart from a failed write, which passes its own message on, each error has its own message. */
  lemma AddErrorMessageInjective(e1: AddError, e2: AddError)
    requires !e1.WriteFailed? && !e2.WriteFailed?
    ensures AddErrorMessage(e1) == AddErrorMessage(e2) ==> e1 == e2
  {
    if e1.QuoteFailed? && e2.QuoteFailed? {
      StockService.QuoteErrorMessageInjective(e1.cause, e2.cause);
    }
  }

  /** The local watchlist after the handler, the error it threw if any, and what it did. */
  datatype AddResult = AddResult(watchlist: seq<string>, error: Option<AddError>, effects: seq<Effect>)

  predicate NoDuplicates(w: seq<string>) {
    forall i, j :: 0 <= i < j < |w| ==> w[i] != w[j]
  }

  /** The watchlist invariant: at most the free-tier limit, no symbol twice. */
  predicate WatchlistInv(w: seq<string>) {
    |w| <= Constants.MAX_WATCHLIST_SIZE_FREE && NoDuplicates(w)
  }

  function HttpEffects(requests: seq<StockService.Request>): (r: seq<Effect>)
    ensures |r| == |requests|
    ensures forall k :: 0 <= k < |r| ==> r[k] == Http(requests[k])
  {
    seq(|requests|, k requires 0 <= k < |requests| => Http(requests[k]))
  }

  /** `handleAdd(symbol)` for the signed-in `user` (a uid) and local `watchlist`. */
  function HandleAdd(
    user: Option<string>, watchlist: seq<string>, symbol: string,
    provider: StockService.Provider, persist: StoreReply, update: StoreReply): (r: AddResult)
    ensures r.error.None? <==>
              && user.Some?
              && StockService.ValidateSymbol(symbol)
              && symbol !in watchlist
              && |watchlist| < Constants.MAX_WATCHLIST_SIZE_FREE
              && StockService.GetStockQuote(symbol, provider).result.Success?
              && persist.Stored? && update.Stored?
    ensures r.error.None? ==> r.watchlist == watchlist + [symbol]
    ensures r.error.Some? ==> r.watchlist == watchlist
    ensures WatchlistInv(watchlist) ==> WatchlistInv(r.watchlist)
    ensures && user.Some? && StockService.ValidateSymbol(symbol) && symbol !in watchlist
            && |watchlist| < Constants.MAX_WATCHLIST_SIZE_FREE
            && StockService.GetStockQuote(symbol, provider).result.Success?
            ==> (persist.StoreFailed? ==>
                   && r.error == Some(WriteFailed(persist.message))
                   && r.effects == HttpEffects(StockService.GetStockQuote(symbol, provider).requests)
                                   + [PersistAdd(user.value, ToUpper(symbol))])
                && (persist.Stored? && update.StoreFailed? ==>
                      && r.error == Some(WriteFailed(update.message))
                      && r.effects == HttpEffects(StockService.GetStockQuote(symbol, provider).requests)
                                      + [PersistAdd(user.value, ToUpper(symbol)), UpdateProfile(watchlist + [symbol])])
    ensures r.error.None? ==>
              r.effects == HttpEffects(StockService.GetStockQuote(symbol, provider).requests)
                           + [PersistAdd(user.value, ToUpper(symbol)), UpdateProfile(watchlist + [symbol])]
  {
    if user.None? then AddResult(watchlist, Some(NotLoggedIn), [])
    else if !StockService.ValidateSymbol(symbol) then AddResult(watchlist, Some(InvalidSymbol), [])
    else if symbol in watchlist then AddResult(watchlist, Some(AlreadyPresent), [])
    else if |watchlist| >= Constants.MAX_WATCHLIST_SIZE_FREE then AddResult(watchlist, Some(WatchlistFull), [])
    else
      var fetched := StockService.GetStockQuote(symbol, provider);
      var verified := HttpEffects(fetched.requests);
      if fetched.result.Failure? then
        AddResult(watchlist, Some(QuoteFailed(fetched.result.error)), verified)
      else
        var persisted := verified + [PersistAdd(user.value, ToUpper(symbol))];
        if persist.StoreFailed? then
          AddResult(watchlist, Some(WriteFailed(persist.message)), persisted)
        else
          var extended := watchlist + [symbol];
          var updated := persisted + [UpdateProfile(extended)];
          if update.StoreFailed? then
            AddResult(watchlist, Some(WriteFailed(update.message)), updated)
          else
            AddResult(extended, None, updated)
  }

  /**
    The guards run in order (signed in, syntax, duplicate by exact string,
    size) and the first that fails decides the error; none of them touches
    the network or the store.
   */
  lemma AddGuardOrder(
    user: Option<string>, watchlist: seq<string>, symbol: string,
    provider: StockService.Provider, persist: StoreReply, update: StoreReply)
    ensures var r := HandleAdd(user, watchlist, symbol, provider, persist, update);
            && (r.error == Some(NotLoggedIn) <==> user.None?)
            && (r.error == Some(InvalidSymbol) <==> user.Some? && !StockService.ValidateSymbol(symbol))
            && (r.error == Some(AlreadyPresent)
                <==> user.Some? && StockService.ValidateSymbol(symbol) && symbol in watchlist)
            && (r.error == Some(WatchlistFull)
                <==> user.Some? && StockService.ValidateSymbol(symbol) && symbol !in watchlist
                     && |watchlist| >= Constants.MAX_WATCHLIST_SIZE_FREE)
            && (r.error in {Some(NotLoggedIn), Some(InvalidSymbol), Some(AlreadyPresent), Some(WatchlistFull)}
                ==> r.effects == [])
  {
  }

  /**
    A failed quote verification writes nothing: once the guards pass, a
    failing fetch is the error, and only its HTTP requests happened.
   */
  lemma AddQuoteFailureWritesNothing(
    user: Option<string>, watchlist: seq<string>, symbol: string,
    provider: StockService.Provider, persist: StoreReply, update: StoreReply)
    requires && user.Some? && StockService.ValidateSymbol(symbol) && symbol !in watchlist
             && |watchlist| < Constants.MAX_WATCHLIST_SIZE_FREE
             && StockService.GetStockQuote(symbol, provider).result.Failure?
    ensures var r := HandleAdd(user, watchlist, symbol, provider, persist, update);
            var fetched := StockService.GetStockQuote(symbol, provider);
            && r.error == Some(QuoteFailed(fetched.result.error))
            && r.effects == HttpEffects(fetched.requests)
            && r.watchlist == watchlist
            && forall k :: 0 <= k < |r.effects| ==> r.effects[k].Http?
  {
  }

  /**
    Persist-then-reflect: a profile update is only issued after the store
    write succeeded, and the local list only changes after both returned.
   */
  lemma AddPersistsBeforeUpdate(
    user: Option<string>, watchlist: seq<string>, symbol: string,
    provider: StockService.Provider, persist: StoreReply, update: StoreReply)
    ensures var r := HandleAdd(user, watchlist, symbol, provider, persist, update);
            forall k :: 0 <= k < |r.effects| && r.effects[k].UpdateProfile? ==>
              && persist.Stored?
              && exists j :: 0 <= j < k && r.effects[j] == PersistAdd(user.value, ToUpper(symbol))
    ensures var r := HandleAdd(user, watchlist, symbol, provider, persist, update);
            r.watchlist != watchlist ==>
              |r.effects| >= 2
              && r.effects[|r.effects| - 2] == PersistAdd(user.value, ToUpper(symbol))
              && r.effects[|r.effects| - 1] == UpdateProfile(r.watchlist)
  {
    var r := HandleAdd(user, watchlist, symbol, provider, persist, update);
    if exists k :: 0 <= k < |r.effects| && r.effects[k].UpdateProfile? {
      assert |r.effects| >= 2 && r.effects[|r.effects| - 2] == PersistAdd(user.value, ToUpper(symbol));
    }
  }

  /** The watchlist with every entry equal to `symbol` dropped, the rest in order. */
  function Without(w: seq<string>, symbol: string): (r: seq<string>)
    ensures |r| <= |w|
    ensures forall x :: x in r <==> x in w && x != symbol
    ensures symbol !in w ==> r == w
    decreases |w|
  {
    if |w| == 0 then []
    else (if w[0] == symbol then [] else [w[0]]) + Without(w[1..], symbol)
  }

  /** Filtering keeps the relative order of the other symbols. */
  lemma {:induction false} WithoutAppend(a: seq<string>, b: seq<string>, symbol: string)
    ensures Without(a + b, symbol) == Without(a, symbol) + Without(b, symbol)
    decreases |a|
  {
    if |a| == 0 {
      assert a + b == b;
    } else {
      assert (a + b)[1..] == a[1..] + b;
      WithoutAppend(a[1..], b, symbol);
    }
  }

  /** On a list without duplicates, removal keeps it so and removes at most one entry. */
  lemma {:induction false} WithoutNoDuplicates(w: seq<string>, symbol: string)
    requires NoDuplicates(w)
    ensures NoDuplicates(Without(w, symbol))
    ensures symbol in w ==> |Without(w, symbol)| == |w| - 1
    decreases |w|
  {
    if |w| > 0 {
      assert NoDuplicates(w[1..]) by {
        assert forall i :: 0 <= i < |w| - 1 ==> w[1..][i] == w[i + 1];
      }
      WithoutNoDuplicates(w[1..], symbol);
      assert w[0] !in w[1..] by {
        assert forall i :: 0 <= i < |w| - 1 ==> w[1..][i] == w[i + 1];
      }
      assert w == [w[0]] + w[1..];
    }
  }

  /** Removing a symbol just added gives back the list before the add. */
  lemma {:induction false} WithoutUndoesAppend(w: seq<string>, symbol: string)
    requires symbol !in w
    ensures Without(w + [symbol], symbol) == w
  {
    WithoutAppend(w, [symbol], symbol);
    assert Without([symbol], symbol) == [] by {
      assert [symbol][1..] == [];
    }
  }

  datatype RemoveResult = RemoveResult(watchlist: seq<string>, actionError: Option<string>, effects: seq<Effect>)

  /**
    `handleRemove(symbol)`: nothing at all without a user; otherwise the
    action error is cleared, the store removal runs, and only if it and the
    profile update succeed does the local list become the filtered list.
   */
  function HandleRemove(
    user: Option<string>, watchlist: seq<string>, actionError: Option<string>, symbol: string,
    remove: StoreReply, update: StoreReply): (r: RemoveResult)
    ensures user.None? ==> r == RemoveResult(watchlist, actionError, [])
    ensures user.Some? ==> (r.actionError.None? <==> remove.Stored? && update.Stored?)
    ensures r.actionError.None? && user.Some? ==> r.watchlist == Without(watchlist, symbol)
    ensures r.actionError.Some? ==> r.watchlist == watchlist
    ensures user.Some? ==> |r.effects| >= 1 && r.effects[0] == PersistRemove(user.value, ToUpper(symbol))
    ensures user.Some? && remove.StoreFailed? ==>
              r.actionError == Some(remove.message) && r.effects == [PersistRemove(user.value, ToUpper(symbol))]
    ensures user.Some? && remove.Stored? && update.StoreFailed? ==> r.actionError == Some(update.message)
    ensures user.Some? && remove.Stored? ==>
              r.effects == [PersistRemove(user.value, ToUpper(symbol)), UpdateProfile(Without(watchlist, symbol))]
  {
    if user.None? then RemoveResult(watchlist, actionError, [])
    else
      var persisted := [PersistRemove(user.value, ToUpper(symbol))];
      if remove.StoreFailed? then RemoveResult(watchlist, Some(remove.message), persisted)
      else
        var filtered := Without(watchlist, symbol);
        var updated := persisted + [UpdateProfile(filtered)];
        if update.StoreFailed? then RemoveResult(watchlist, Some(update.message), updated)
        else RemoveResult(filtered, None, updated)
  }

  /** Removal keeps the watchlist invariant, and removes a present symbol's single entry. */
  lemma RemovePreservesInv(
    user: Option<string>, watchlist: seq<string>, actionError: Option<string>, symbol: string,
    remove: StoreReply, update: StoreReply)
    requires WatchlistInv(watchlist)
    ensures var r := HandleRemove(user, watchlist, actionError, symbol, remove, update);
            && WatchlistInv(r.watchlist)
            && (r.watchlist != watchlist ==> symbol !in r.watchlist && |r.watchlist| == |watchlist| - 1)
  {
    WithoutNoDuplicates(watchlist, symbol);
  }

  /** A remove right after a successful add restores the list, and an absent symbol is a silent no-op. */
  lemma AddThenRemove(
    uid: string, watchlist: seq<string>, symbol: string,
    provider: StockService.Provider)
    ensures var added := HandleAdd(Some(uid), watchlist, symbol, provider, Stored, Stored);
            added.error.None? ==>
              HandleRemove(Some(uid), added.watchlist, None, symbol, Stored, Stored).watchlist == watchlist
    ensures symbol !in watchlist ==>
              HandleRemove(Some(uid), watchlist, None, symbol, Stored, Stored).watchlist == watchlist
  {
    var added := HandleAdd(Some(uid), watchlist, symbol, provider, Stored, Stored);
    if added.error.None? {
      WithoutUndoesAppend(watchlist, symbol);
    }
  }
}

=== FILE: wrappers.dfy ===
/** Option and Result, shared by every module of the model. */
module Wrappers {

  /** A value that may be absent: JavaScript's `T | null` / `T | undefined`. */
  datatype Option<+T> = None | Some(value: T)

  /** The outcome of an operation that either returns a value or throws. */
  datatype Result<+R, +E> = Success(value: R) | Failure(error: E)
}
